=== FILE: README.md ===
# ShelfDB core and sidebar widget logic, modelled in Dafny

This project models the core of ShelfDB, a small document store built on
Python's `shelve` module, and part of the logic of the widget toolkit shipped
in its documentation bundle. It then proves properties of that model.

ShelfDB part:

- `DB.shelf` keeps a cache of open shelf handles.
- `ShelfQuery` iterates a shelf as `Entry` objects. Each entry is the stored
  dict decorated with its `'_id'`.
- The query operations are `first`, `filter`, `map`, `reduce`, `run`,
  `slice` and `sort`. `ChainQuery` wraps their results.
- Inserting writes new dicts under a fresh id.
- `update`, `replace` and `delete` act on the entries a query yields, either
  one `Entry` at a time or in bulk.
- The older `FileShelf` class of `shelfdb/db.py` is modelled over the same
  store: a setter that accepts only dicts, `insert`, `get`, `all`, `filter`
  and `delete`.

Widget part, from `docs/_component/sidebar/sidebar.js`:

- the `Adapter` instance-id registry, one registry shared by the widgets of
  every class;
- the `lift` shadow helper;
- the `ButtonStyle` descriptor, which overlays the supplied options on its
  defaults;
- the `InputTag` chips editor;
- `Tab` activation;
- `Sidebar` visibility.

How the model is built:

- A shelf is an in-memory `Store`: a map from id to record plus the order in
  which iteration visits the ids.
- Python values are a datatype that tells a plain `dict` from an instance of
  a `dict` subclass.
- Exceptions become the `Err` case of a `Result`.
- Fresh ids (`uuid1`, `uuid4`) and random draws arrive as parameters.
- The modules follow the program:
  - `Wrappers`, `Values`, `Query`, `Store`, `Shelf`, `HandleCache` and
    `FileShelf` for the store;
  - `Adapter`, `Styles`, `InputTag`, `Tab` and `Sidebar` for the widgets.

Two behaviours of the widget code worth knowing:

- `ButtonStyle.style` does not merge the defaults; only `css` does
  (`Styles.Style`, `Styles.Css`).
- `Sidebar.show({overlay: false})`, which a media match calls, does not hide
  an overlay that is already shown (`Sidebar.WideningKeepsOverlay`).

## Model

| member | source | states |
|---|---|---|
| HandleCache.Acquire | shelfdb/shelf.py:31-39 | A cached handle that is still open is returned and nothing changes. For an unknown name or a closed handle, a newly opened handle is cached under the name. Other names are untouched and the result is always open. |
| HandleCache.CloseAll | shelfdb/shelf.py:41-44 | `close()` closes every cached handle and keeps each one cached under its name. |
| HandleCache.AcquireIdempotent | shelfdb/shelf.py:35-39 | Asking twice for the same shelf answers the same handle; the second call changes nothing. |
| HandleCache.ReopenAfterClose | shelfdb/db.py:18-23 | After a close, asking for the shelf opens a new handle that differs from the earlier one. |
| HandleCache.DistinctNamesDistinctHandles | shelfdb/db.py:18-23 | Two different shelf names never share a handle. |
| Values.TagSetsId | shelfdb/shelf.py:148-152 | Decorating a record with `'_id'` adds or overwrites that key and keeps every other key and value. |
| Values.MergeOverrides | shelfdb/shelf.py:167-170 | `dict.update` holds both key sets, and the patch wins on every key the two share. |
| Shelf.EntryCarriesId | shelfdb/shelf.py:148-152 | An entry carries its id, `'_id'` holds that id, and every other stored key keeps its value. |
| Shelf.Iterate | shelfdb/shelf.py:51-59 | Iteration yields one entry per id in the shelf's order, each read under its own id. |
| Shelf.IterateVisitsEachIdOnce | shelfdb/shelf.py:51-59 | Iteration visits every stored id exactly once. |
| Shelf.Get | shelfdb/shelf.py:61-67 | `get` succeeds exactly for a stored id and answers the stored dict tagged with that id. A missing id is a `KeyError`. |
| Shelf.IteratedEntriesAreGettable | shelfdb/shelf.py:51-67 | Every entry iteration yields is exactly what `get` answers for its id. |
| Shelf.FirstIsStored | shelfdb/shelf.py:69-74 | `first(p)` answers a stored entry that satisfies `p`. |
| Shelf.FilteredEntriesAreStored | shelfdb/shelf.py:76-78 | `filter(p)` yields only stored entries, unchanged, each satisfying `p`. |
| Shelf.SortedEntriesAreStored | shelfdb/shelf.py:96-98 | `sort` yields only stored entries, unchanged. |
| Shelf.SlicedEntriesAreStored | shelfdb/shelf.py:92-94 | `slice` yields only stored entries, unchanged. |
| Shelf.ReduceCountsEntries | shelfdb/shelf.py:84-86 | Reducing with a counting step from 0 answers the number of stored entries. |
| Shelf.Insert | shelfdb/shelf.py:100-110 | `insert` raises exactly for a non-dict, leaving the shelf unchanged. Otherwise it stores the dict under the fresh id, returns that id, and leaves every other entry untouched. |
| Shelf.InsertThenGet | shelfdb/shelf.py:100-110 | An inserted dict comes back from `get` tagged with its id, and the shelf grows by one. |
| Shelf.EntryUpdate | shelfdb/shelf.py:167-170 | `Entry.update` merges the patch into the entry and writes the whole entry back under its id. No other id changes. |
| Shelf.UpdateKeepsIdTag | shelfdb/shelf.py:180-182 | After an update whose patch does not name `'_id'`, the stored record's `'_id'` still equals its id. |
| Shelf.EntryReplace | shelfdb/shelf.py:172-178 | `Entry.replace` accepts exactly a `dict` and raises for anything else. It stores the new dict tagged with the entry's id, and no other id changes. |
| Shelf.ReplaceDropsOldKeys | shelfdb/shelf.py:172-178 | No key of the old entry survives a replace unless the new dict has it. |
| Shelf.EntryDelete | shelfdb/shelf.py:184-185 | `Entry.delete` removes its own id and nothing else. An id already gone is a `KeyError`. |
| Shelf.WriteEach | shelfdb/shelf.py:112-118 | Writing back every yielded entry stores each entry's new record under its id and keeps every other record. |
| Shelf.UpdateEach | shelfdb/shelf.py:112-114 | `query.update(patch)` stores each yielded entry merged with the patch and leaves ids no entry carries alone. |
| Shelf.UpdateAll | shelfdb/shelf.py:112-114 | Updating a whole shelf keeps its ids and their order, and every record becomes itself tagged and merged with the patch. |
| Shelf.ReplaceEach | shelfdb/shelf.py:116-118 | `query.replace(d)` raises exactly when some entry is yielded and `d` is not exactly a `dict`. Otherwise each yielded id holds `d` tagged with that id, and every other record is kept. |
| Shelf.DeleteEach | shelfdb/shelf.py:120-122 | `query.delete()` removes the yielded ids and touches no other record. It ends with a `KeyError` exactly when some yielded id was not stored. The `KeyError` comes from the first such id: the ids yielded before it are deleted and the rest are kept. |
| Shelf.DeleteAll | shelfdb/shelf.py:120-122 | Deleting a whole shelf leaves it empty, so iteration yields nothing. |
| Query.Filter | shelfdb/shelf.py:76-78 | `filter` yields exactly the elements that satisfy the test, and only elements of the input. |
| Query.FilterAppend | shelfdb/shelf.py:76-78 | Filtering keeps the iteration order: it distributes over concatenation. |
| Query.FilterPartition | shelfdb/shelf.py:76-78 | A test and its negation split the elements between them. |
| Query.First | shelfdb/shelf.py:69-74 | `first` answers `None` exactly when no element passes, and otherwise a passing element of the input. |
| Query.FirstIsHeadOfFilter | shelfdb/shelf.py:69-78 | `first(p)` is the head of `filter(p)`, and every element before it fails the test. |
| Query.Map | shelfdb/shelf.py:80-82 | `map` yields the function's image of each element, in order and one per element. |
| Query.FilterOfMap | shelfdb/shelf.py:76-82 | Filtering mapped results is mapping the filtered elements. |
| Query.Reduce | shelfdb/shelf.py:84-86 | `functools.reduce` folds from the left: reducing nothing answers the start value, and reducing a non-empty query applies `fn` to the reduction of all but the last element and the last element. |
| Query.ReduceAppend | shelfdb/shelf.py:84-86 | Reducing a concatenation continues from the result of reducing the first part. |
| Query.ReduceCounts | shelfdb/shelf.py:84-86 | A counting step adds the number of elements to the start value. |
| Query.ReduceOmittedInitAsWritten | shelfdb/shelf.py:84-86 | With the initializer left out, an empty query reduces to `None` and a one-element query to `fn(None, x)`. |
| Query.ReduceOmittedInit | shelfdb/shelf.py:84-86 | Without an initializer, an empty query is a `TypeError` and a one-element query reduces to its element. |
| Query.ReduceOmittedInitAgrees | shelfdb/shelf.py:84-86 | On a non-empty query the two readings agree whenever `None` is a left identity of `fn`. |
| Query.ReduceOmittedInitAgreesOnlyIf | shelfdb/shelf.py:84-86 | On a one-element query `[x]` the two readings agree exactly when `fn(None, x) == x`. |
| Query.ReduceOmittedInitDiffers | shelfdb/shelf.py:84-86 | A concrete query on which the two readings differ. |
| Query.Run | shelfdb/shelf.py:88-90 | `run()` never yields more results than the query holds. |
| Query.RunKeepsPresent | shelfdb/shelf.py:88-90 | `run()` is the values of the non-`None` results, in their order: filtering out `None` and unwrapping what is left. There is one value per non-`None` result, each present in the input. |
| Query.RunAppend | shelfdb/shelf.py:88-90 | `run()` over a concatenation is the concatenation of the two runs, so results keep their order. |
| Query.RunOfPresent | shelfdb/shelf.py:88-90 | With no `None` among the results, `run()` yields all of them in order. |
| Query.Slice | shelfdb/shelf.py:92-94 | `islice` is a `ValueError` exactly for a start or stop outside 0..`sys.maxsize` or a step outside 1..`sys.maxsize`. Otherwise element k is at start + k*step below the clamped stop, and no further position fits. |
| Query.SliceTakesElements | shelfdb/shelf.py:92-94 | A slice holds only elements of the sliced sequence. |
| Query.SliceIsListSlice | shelfdb/shelf.py:92-94 | With the default step and `start <= stop <= sys.maxsize`, `islice` is the list slice clamped to the sequence. |
| Query.Sort | shelfdb/shelf.py:96-98 | `sorted` yields a permutation ordered by the key, descending when `reverse` is set. It is stable: equal keys keep their iteration order. |
| Query.SortBy | shelfdb/shelf.py:96-98 | The ascending sort is a permutation, ordered, and keeps each run of equal keys. |
| Query.Next | shelfdb/shelf.py:134-138 | `next(chain)` answers `None` exactly when the chain is used up. Otherwise it answers the first element and the rest. |
| Query.Drain | shelfdb/shelf.py:125-138 | Iterating a chain yields everything it holds, in order, and leaves it used up. |
| Query.DrainTwice | shelfdb/shelf.py:125-138 | A chained query yields its results once: a second pass yields nothing. |
| Query.ChainFirst | shelfdb/shelf.py:69-74 | `first` on a chained query answers what `first` answers on its results. It consumes the chain up to and including the match, every element before which fails the test, or to its end when nothing matches. |
| Query.ChainFirstTwice | shelfdb/shelf.py:69-74 | Asking a chained query `[a, b]` twice for a test both pass answers `a`, then `b`, where the same question on a list answers `a` both times. |
| Store.Put | shelfdb/shelf.py:180-182 | Writing a key stores the record, keeps every other record, and keeps the existing iteration order as a prefix. |
| Store.Remove | shelfdb/shelf.py:184-185 | Deleting a key removes it alone and keeps the relative order of the rest. |
| FileShelf.SetItem | shelfdb/db.py:34-37 | The setter raises `ValueError` exactly for a non-dict. Otherwise it stores the dict under the key, overwriting. |
| FileShelf.Insert | shelfdb/db.py:45-49 | `insert` stores under the given id, or under a fresh one when none is given. The only key it adds is that one, and other records are kept. A non-dict is a `ValueError`. |
| FileShelf.InsertGrows | shelfdb/db.py:45-49 | The shelf grows by one exactly when the key was not yet stored, which is always the case for a fresh id. |
| FileShelf.InsertNothingRejected | shelfdb/db.py:45-49 | `insert()` with no arguments is a `ValueError`, because its default `None` is not a dict. |
| FileShelf.Get | shelfdb/db.py:51-54 | `get` succeeds exactly for a stored key. It answers the stored dict with `'_id'` set to the key, and a missing key is a `KeyError`. |
| FileShelf.SetItemThenGet | shelfdb/db.py:34-54 | What the setter stored comes back from `get` tagged with its key. |
| FileShelf.All | shelfdb/db.py:39-43 | `all()` yields one record per key of the iteration order. |
| FileShelf.AllYieldsEachRecord | shelfdb/db.py:39-43 | Each record `all()` yields is what `get` answers for its key, and every stored key is yielded once. |
| FileShelf.Filter | shelfdb/db.py:56-62 | `filter(fn)` yields exactly the records of `all()` that `fn` accepts. A record for which `fn` raises `KeyError` is skipped. |
| FileShelf.FilterSplitsAll | shelfdb/db.py:56-62 | When `fn` never raises, `fn` and its negation split the records between them. |
| FileShelf.FilterAgreesWithShelfQuery | shelfdb/db.py:56-62 | `FileShelf.filter` answers the data of the entries `ShelfQuery.filter` yields for the test that rejects a record where `fn` raises `KeyError`. Given `fn` itself, `ShelfQuery.filter` passes that `KeyError` on instead. |
| FileShelf.FilterAgreesWithShelfQueryWhenTotal | shelfdb/db.py:56-62 | Where `fn` never raises, `FileShelf.filter(fn)` answers exactly the data of the entries `ShelfQuery.filter` yields for `fn` itself, in order. |
| FileShelf.Delete | shelfdb/db.py:64-66 | Deleting every key of a snapshot of the keys leaves the shelf empty. |
| Adapter.HexDigit | docs/_component/sidebar/sidebar.js:845 | Each digit is a lower-case hexadecimal character. |
| Adapter.Hex | docs/_component/sidebar/sidebar.js:845 | `toString(16)` is a non-empty string of lower-case hex digits with no leading zero. |
| Adapter.HexRoundTrip | docs/_component/sidebar/sidebar.js:845 | Reading the digits of `n` back gives `n`. |
| Adapter.HexInjective | docs/_component/sidebar/sidebar.js:845 | Different numbers have different digits. |
| Adapter.InstanceId | docs/_component/sidebar/sidebar.js:844-846 | Every generated id starts with `adt-` and has at least one more character. |
| Adapter.InstanceIdShape | docs/_component/sidebar/sidebar.js:839-846 | A draw below `max_id` gives an id of at most `adt-` plus four digits, and different draws give different ids. |
| Adapter.Construct | docs/_component/sidebar/sidebar.js:847-853 | The constructor keeps the first drawn id that is not registered, after all earlier draws collided, and registers it. Without one, the registry is unchanged and every draw collided. |
| Adapter.ConstructedIdsDiffer | docs/_component/sidebar/sidebar.js:847-853 | Two constructions in a row, the second on the registry the first left, never hand out the same id. Both ids end up registered, the second was not registered before, and the registry only grows. |
| Adapter.IdSpaceSize | docs/_component/sidebar/sidebar.js:839-846 | The first `n` draws name exactly `n` distinct ids, so there are exactly `max_id` ids. |
| Adapter.FullRegistryCollides | docs/_component/sidebar/sidebar.js:839-852 | Once all `max_id` ids are registered, by widgets of whatever classes, every draw names a registered id. |
| Adapter.ConstructOnFullRegistry | docs/_component/sidebar/sidebar.js:847-853 | A constructor facing a full registry finds no free id in any stream of draws and leaves the registry unchanged. |
| Styles.Overlay | docs/_component/sidebar/sidebar.js:6066-6070 | The spread options hold every key of either side. A supplied key keeps its supplied value and any other key its default. |
| Styles.OverlayWins | docs/_component/sidebar/sidebar.js:6066-6070 | Spreading the options over the defaults keeps both key sets, and the supplied value wins, even when it is `undefined`. |
| Styles.OverlayIdempotent | docs/_component/sidebar/sidebar.js:6066-6070 | Spreading the same defaults again changes nothing. |
| Styles.ColorDecls | docs/_component/sidebar/sidebar.js:6116-6124 | `_color` renders at most one declaration. |
| Styles.RadiusDecls | docs/_component/sidebar/sidebar.js:6125-6131 | `_borderRadius` renders at most one declaration. |
| Styles.Style | docs/_component/sidebar/sidebar.js:6110-6131 | `style()` renders one declaration for each of `color` and `borderRadius` that is neither `undefined` nor `null`, and nothing for the others. |
| Styles.StyleDeclaresDefinedOptions | docs/_component/sidebar/sidebar.js:6110-6131 | `style()` renders a declaration exactly for each option that is neither `undefined` nor `null`, and carries that option's value. |
| Styles.Css | docs/_component/sidebar/sidebar.js:6066-6131 | `css()` renders at most two declarations. A colour left out renders the default `blue` first, and a radius left out renders the default `4px` last. Once both options are supplied, `css` renders what `style` renders. |
| Styles.CssOfNothingIsDefaults | docs/_component/sidebar/sidebar.js:6059-6070 | `css()` with no options renders the defaults `blue` and `4px`. This is what `style()` renders for the defaults. |
| Styles.CssSuppliedWins | docs/_component/sidebar/sidebar.js:6066-6131 | A supplied option replaces its default and one left out keeps it. One supplied as `undefined` or `null` renders nothing. |
| Styles.CssIdempotent | docs/_component/sidebar/sidebar.js:6066-6107 | Passing already overlaid options to `css` renders the same thing. |
| Styles.LiftLevel | docs/_component/sidebar/sidebar.js:4968-4969 | The level `lift` uses always names a row of the shadow table. |
| Styles.LiftLevelClamps | docs/_component/sidebar/sidebar.js:4968-4969 | A level in 0..5 is used as given, any other level becomes 0, and a missing level is 3. |
| Styles.LiftOutOfRangeIsFlat | docs/_component/sidebar/sidebar.js:4968-4978 | A level outside 0..5 renders the flat shadow of level 0. Leaving the level out renders level 3. |
| Styles.LiftTable | docs/_component/sidebar/sidebar.js:4968-4979 | For any shadow colour `c`, `lift` renders level 0 to 5 as `box-shadow: 0 0 0 0 c;`, `0 1px 3px 0`, `0 2px 5px 0`, `0 4px 9px 0`, `0 8px 17px 0` and `0 16px 33px 0`. |
| InputTag.TrimStart | docs/_component/sidebar/sidebar.js:7105 | Trimming the front drops exactly a leading run of white space. |
| InputTag.TrimEnd | docs/_component/sidebar/sidebar.js:7105 | Trimming the back drops exactly a trailing run of white space. |
| InputTag.Trim | docs/_component/sidebar/sidebar.js:7105 | `trim()` leaves no white space at either end. |
| InputTag.TrimKeepsMiddle | docs/_component/sidebar/sidebar.js:7105 | `trim()` keeps a contiguous piece of the string from the end of its leading white space on. Everything before and after that piece is white space. |
| InputTag.TrimIdempotent | docs/_component/sidebar/sidebar.js:7105 | Trimming twice is trimming once. |
| InputTag.TrimOfBlank | docs/_component/sidebar/sidebar.js:7135 | White space alone trims to the empty string. |
| InputTag.AddTag | docs/_component/sidebar/sidebar.js:7142-7159 | `addTag` with the value trimmed first either leaves the chips as they are or appends exactly one chip holding the trimmed value. A blank value adds nothing. |
| InputTag.AddTagAsWritten | docs/_component/sidebar/sidebar.js:7142-7159 | `addTag` does nothing for `""` or for a value some chip already shows once trimmed. Otherwise it appends a chip holding exactly the value. |
| InputTag.AddTagKeepsTidy | docs/_component/sidebar/sidebar.js:7142-7159 | Adding a trimmed value keeps the chips trimmed, non-empty and without repeats, and the tag is shown afterwards unless it is blank. |
| InputTag.Commit | docs/_component/sidebar/sidebar.js:7130-7141 | Enter and blur empty the box and add at most one chip after the existing ones. |
| InputTag.CommitAsWritten | docs/_component/sidebar/sidebar.js:7131-7133 | Enter hands `addTag` the trimmed box text. |
| InputTag.CommitShowsTag | docs/_component/sidebar/sidebar.js:7130-7141 | After Enter or blur the typed text is shown as a tag unless it was blank, and the chips stay tidy. |
| InputTag.BackspaceAsWritten | docs/_component/sidebar/sidebar.js:7134-7135 | With a blank box, Backspace removes the last chip, and with no chip it throws `TypeError`. A non-blank box changes nothing. |
| InputTag.Backspace | docs/_component/sidebar/sidebar.js:7134-7135 | With a blank box, Backspace removes the last chip if there is one. Otherwise nothing changes. |
| InputTag.BackspaceAgrees | docs/_component/sidebar/sidebar.js:7134-7135 | Whenever the code as written does not throw, the two readings agree. |
| InputTag.BackspaceOnEmptyRowThrows | docs/_component/sidebar/sidebar.js:7134-7135 | Backspace on an empty row with an empty box throws as written. |
| InputTag.BackspaceKeepsTidy | docs/_component/sidebar/sidebar.js:7134-7135 | Removing the last chip keeps the rest tidy. |
| InputTag.AddAllAsWritten | docs/_component/sidebar/sidebar.js:7108-7111 | Adding a list of values as written keeps the existing chips in front and appends at most one chip per list element, each chip being one of the values. |
| InputTag.AddAll | docs/_component/sidebar/sidebar.js:7108-7111 | Adding a list of values, each trimmed, keeps the existing chips in front and appends at most one chip per list element. |
| InputTag.Tags | docs/_component/sidebar/sidebar.js:7102-7107 | The `tags` getter reads one trimmed text per chip, in order. |
| InputTag.HasTagOfTidy | docs/_component/sidebar/sidebar.js:7145-7148 | On tidy chips, a value is shown exactly when it is one of the chips. |
| InputTag.SetTagsAsWritten | docs/_component/sidebar/sidebar.js:7108-7111 | The setter as written leaves at most one chip per list element, each chip being one of the values. Equal elements can give equal chips. |
| InputTag.SetTags | docs/_component/sidebar/sidebar.js:7108-7111 | The trimming setter leaves at most one chip per list element. |
| InputTag.SetTagsIsDedup | docs/_component/sidebar/sidebar.js:7108-7111 | With each value trimmed, setting the tags leaves tidy chips: the trimmed values without blanks or repeats, first occurrences in order. |
| InputTag.SetTagsReadBack | docs/_component/sidebar/sidebar.js:7102-7111 | Reading the tags after setting them gives the chips themselves. |
| InputTag.SetTagsOfTrimmed | docs/_component/sidebar/sidebar.js:7108-7111 | For values that are already trimmed, the setter as written and the trimming one agree. |
| InputTag.SetTagsAsWrittenRepeats | docs/_component/sidebar/sidebar.js:7108-7148 | Setting `[t, " " + t]` as written shows the tag `t` twice. The trimming setter shows it once. |
| Tab.Activate | docs/_component/sidebar/sidebar.js:8285-8291 | The clicked tab becomes active and remembered, and the previously remembered tab loses `active`. No other tab changes. |
| Tab.ActivateKeepsSingle | docs/_component/sidebar/sidebar.js:8285-8291 | When only the remembered tab was active, only the clicked tab is active afterwards. |
| Tab.ActivateIdempotent | docs/_component/sidebar/sidebar.js:8285-8291 | Clicking the same tab again changes nothing. |
| Tab.StaleActiveSurvives | docs/_component/sidebar/sidebar.js:8279-8291 | A tab marked active in the markup but not remembered stays active when another tab is clicked. |
| Tab.Setup | docs/_component/sidebar/sidebar.js:8276-8284 | Setup wires the leading run of direct child tabs and stops at the first other one. The remembered tab is the last wired one marked `active`, and the `active` classes are untouched. |
| Sidebar.Show | docs/_component/sidebar/sidebar.js:7995-7998 | `show` shows the content. It shows the overlay unless `overlay: false` is passed, and never hides it. |
| Sidebar.Hide | docs/_component/sidebar/sidebar.js:7999-8002 | `hide` hides both parts. |
| Sidebar.MediaChange | docs/_component/sidebar/sidebar.js:7989-7994 | A wide screen shows the content and leaves the overlay as it was. A narrow one hides both. |
| Sidebar.OverlayClick | docs/_component/sidebar/sidebar.js:7985-7987 | A click on the overlay hides both parts. |
| Sidebar.Construct | docs/_component/sidebar/sidebar.js:7962-7976 | After construction the content shows exactly on a wide screen. The overlay shows exactly when the screen is wide and the markup showed it. |
| Sidebar.TransitionsKeepConsistent | docs/_component/sidebar/sidebar.js:7985-8002 | No transition shows the overlay without the content, and construction establishes this. |
| Sidebar.ReplayOverlay | docs/_component/sidebar/sidebar.js:7985-8002 | After any sequence of `show`, `hide`, media changes and overlay clicks, the overlay shows exactly when some `show` without `overlay: false` came after the last `hide`, overlay click or narrow screen. With no such event it shows when it showed at the start and nothing hid it. |
| Sidebar.ReplayContent | docs/_component/sidebar/sidebar.js:7985-8002 | After a non-empty sequence of events the content shows exactly when the last event was a `show` or a wide screen. No events change nothing. |
| Sidebar.WideningKeepsOverlay | docs/_component/sidebar/sidebar.js:7989-7998 | Widening the screen while the overlay shows leaves it shown. |
| Sidebar.NarrowThenWide | docs/_component/sidebar/sidebar.js:7989-8002 | A narrow screen followed by a wide one shows the content alone. |

## Left out

- Persistence:
  - Opening, syncing and closing shelf files, and pickling, are not modelled.
  - `FileShelf.delete` closing the file and removing it with `os.remove` is not modelled.
  - `DB.__init__` creating the directory is not modelled.

  The store is an in-memory map.
- The order in which the dbm visits its keys is unspecified. The model appends a new key after the existing ones. The order clauses of Store.Put, Shelf.WriteEach and Shelf.UpdateEach (the old order is a prefix of the new one) and of Shelf.UpdateAll (the order is unchanged) describe the model's store. They are not a promise about the order a real dbm file iterates in.
- `uuid1`/`uuid4` are parameters that name no stored id. `Entry.ts`, the timestamp decoded from a `uuid1`, is not modelled.
- Python values are a subset: `None`, booleans, integers, strings, lists and dicts. Floats and other picklable objects are not modelled.
- ShelfQuery callbacks (the `filter_`, `fn` and `key` arguments) are total functions in the model. A callback that raises, loops or changes the shelf while it is iterated is not modelled.
- FileShelf.Filter: only a `KeyError` from `fn` is modelled, and it skips that record. Any other exception is not caught there and ends the generator; that is not modelled.
- Shelf.EntryUpdate, Shelf.UpdateEach, Shelf.UpdateAll: the patch is a dict. `dict.update` also takes an iterable of key/value pairs, and raises `TypeError` or `ValueError` for anything else. So a non-dict patch raises at the first entry with nothing written, and raises nothing on an empty query. Neither case is modelled.
- Query.Slice: `sys.maxsize` is taken as 2^63 - 1, as on 64-bit builds. Arguments are integers or `None`; other types, which `islice` also rejects with `ValueError`, are not modelled.
- Query.Sort: sort keys are integers. Python's default key, `Entry.ts`, is a datetime and is not modelled.
- Shelf.WriteEach, Shelf.UpdateEach, Shelf.ReplaceEach, Shelf.DeleteEach: these require entries with distinct ids. That always holds for the entries a query over one shelf yields (`Shelf.IterateVisitsEachIdOnce`), but an arbitrary hand-built list of entries is not covered.
- `Entry.replace` also writes `'_id'` into the caller's dict. That side effect on the argument is not modelled.
- FileShelf.Filter: how the generator ends once `all()` is used up is not modelled. Its `StopIteration` escapes the loop, and how Python treats that depends on its version. The model states what is yielded.
- Adapter.Construct: `Math.random()` is an explicit, finite sequence of draws. A registry holding every id makes the real constructor loop forever. The model answers `None` once the draws run out.
- Styles.Lift: the shadow text is modelled for integer levels only. A `null` or non-integer level, which indexes past the table in the code, is not modelled.
- Styles.Css: the fixed CSS rules and the `lift` calls around the options are not modelled. The colour arithmetic of `bgColorInt` is not modelled either.
- InputTag: the browser's own editing of the `contenteditable` box is not modelled, nor the chips' remove button and its `remove` event.
- InputTag.Backspace, InputTag.BackspaceAsWritten: markup children placed before the box are not modelled. These include text nodes, which Backspace would remove instead of a chip.
- Tab.Activate: the click target is taken to be the tab itself. A click on a descendant of a tab activates that descendant in the code; this is not modelled.
- Sidebar.Show: `overlay` is a boolean. JavaScript truthiness of other values is not modelled.
- Styling hooks of every widget (`tagStyle`, `classStyle`, `addStyle`, style injection) are not modelled.

## Findings

| source | as written | input that shows it | evidently intended | confidence | as-written member | corrected member |
|---|---|---|---|---|---|---|
| shelfdb/shelf.py:84-86 | `reduce(fn, initializer=None)` passes `None` on to `functools.reduce`, so leaving out the initializer starts the fold at `None` | a query with one entry `e`, reduced by `lambda acc, x: acc`, answers `None` | without an initializer the fold starts at the first entry, as `functools.reduce(fn, xs)` does, answering `e` | medium, not executed | Query.ReduceOmittedInitAsWritten, Query.ReduceOmittedInitDiffers | Query.ReduceOmittedInit, Query.ReduceOmittedInitAgrees |
| docs/_component/sidebar/sidebar.js:7134-7135 | Backspace in a blank box removes `previousSibling` without checking it | no chips and an empty box: `previousSibling` is `null`, so Backspace throws `TypeError` | nothing happens when there is no chip | high, not executed | InputTag.BackspaceAsWritten, InputTag.BackspaceOnEmptyRowThrows | InputTag.Backspace, InputTag.BackspaceKeepsTidy |
| docs/_component/sidebar/sidebar.js:7108-7111, 7142-7148 | `set tags` passes values to `addTag` untrimmed, while `addTag` compares them with trimmed chip texts | `tags = ["a", " a"]` adds two chips, and the getter reads `["a", "a"]` | each value is trimmed as Enter and blur do, giving one chip `a` | high, not executed | InputTag.SetTagsAsWritten, InputTag.SetTagsAsWrittenRepeats | InputTag.SetTags, InputTag.SetTagsIsDedup |

=== FILE: adapter.dfy ===
/** The instance-id registry of `Adapter`, the base class of the widgets in
    docs/_component/sidebar/sidebar.js.

    The registry object is created once, in `Adapter`'s static block, and
    every subclass reaches that same object through `this._class.instance`,
    so one registry serves all widgets of every class. Each new element
    draws `adt-` followed by the lower-case hexadecimal
    form of `floor(Math.random() * max_id)`, with `max_id = 16^4 - 1`,
    redraws while the id is already registered, and registers the id it
    keeps. `Math.random()` is not part of the model: the draws arrive as a
    sequence of numbers below `max_id`.
 */
module Adapter {
  import opened Wrappers

  /** `Adapter.max_id`: `Math.pow(16, 4) - 1`. */
  const MaxId: nat := 65535

  const Prefix: string := "adt-"

  predicate IsHexDigit(c: char) {
    '0' <= c <= '9' || 'a' <= c <= 'f'
  }

  /** The lower-case digit for `d`. */
  function HexDigit(d: nat): (c: char)
    requires d < 16
    ensures IsHexDigit(c)
  {
    if d < 10 then ('0' as int + d) as char else ('a' as int + d - 10) as char
  }

  function DigitValue(c: char): (r: nat)
    requires IsHexDigit(c)
    ensures r < 16 && HexDigit(r) == c
  {
    if '0' <= c <= '9' then (c - '0') as nat else (c - 'a') as nat + 10
  }

  /** `n.toString(16)`: lower-case digits, no leading zero except for 0. */
  function Hex(n: nat): (r: string)
    ensures |r| >= 1
    ensures forall i :: 0 <= i < |r| ==> IsHexDigit(r[i])
    ensures n > 0 ==> r[0] != '0'
  {
    if n < 16 then [HexDigit(n)] else Hex(n / 16) + [HexDigit(n % 16)]
  }

  /** The value of a string of lower-case hexadecimal digits. */
  function ParseHex(s: string): nat
    requires forall i :: 0 <= i < |s| ==> IsHexDigit(s[i])
  {
    if s == [] then 0 else ParseHex(s[..|s| - 1]) * 16 + DigitValue(s[|s| - 1])
  }

  /** Reading back the digits of `n` gives `n`. */
  lemma {:induction false} HexRoundTrip(n: nat)
    ensures ParseHex(Hex(n)) == n
  {
    var r := Hex(n);
    if n >= 16 {
      HexRoundTrip(n / 16);
      assert r[..|r| - 1] == Hex(n / 16);
      assert DigitValue(r[|r| - 1]) == n % 16;
    } else {
      assert DigitValue(r[0]) == n;
    }
  }

  /** Different numbers have different digits. */
  lemma HexInjective(a: nat, b: nat)
    requires Hex(a) == Hex(b)
    ensures a == b
  {
    HexRoundTrip(a);
    HexRoundTrip(b);
  }

  /** A draw below `max_id` has at most four digits. */
  lemma {:induction false} HexWidth(n: nat, w: nat)
    requires n < Pow16(w) && w >= 1
    ensures |Hex(n)| <= w
  {
    if n >= 16 {
      HexWidth(n / 16, w - 1);
    }
  }

  function Pow16(w: nat): nat
  {
    if w == 0 then 1 else 16 * Pow16(w - 1)
  }

  /** `_generate_id()` for the draw `d`. */
  function InstanceId(d: nat): (r: string)
    ensures |r| > |Prefix| && r[..|Prefix|] == Prefix
  {
    Prefix + Hex(d)
  }

  /** Every id an element can carry is at most `adt-` and four digits
      long, and two draws give the same id only when they are equal. */
  lemma InstanceIdShape(d: nat, e: nat)
    requires d < MaxId
    ensures |InstanceId(d)| <= |Prefix| + 4
    ensures InstanceId(d) == InstanceId(e) ==> d == e
  {
    assert Pow16(4) == 65536;
    HexWidth(d, 4);
    if InstanceId(d) == InstanceId(e) {
      assert InstanceId(d)[|Prefix|..] == Hex(d);
      assert InstanceId(e)[|Prefix|..] == Hex(e);
      HexInjective(d, e);
    }
  }

  /** A draw of `Math.floor(Math.random() * max_id)`. */
  predicate IsDraw(d: nat) {
    d < MaxId
  }

  /** The registry (`this._class.instance`) as the set of ids it holds. */
  type Registry = set<string>

  /** Every draw names an id already registered. */
  predicate AllTaken(reg: Registry, draws: seq<nat>) {
    forall j :: 0 <= j < |draws| ==> InstanceId(draws[j]) in reg
  }

  /** `new Widget()`: draws until an id is not registered, then registers
      it. `draws` is the stream of draws; if every one of them names a
      registered id the constructor is still drawing and `None` is
      answered with the registry unchanged. */
  method Construct(reg: Registry, draws: seq<nat>) returns (id: Option<string>, reg': Registry)
    requires forall i :: 0 <= i < |draws| ==> IsDraw(draws[i])
    ensures id.Some? ==> id.value !in reg && reg' == reg + {id.value}
    ensures id.Some? ==>
      exists k :: 0 <= k < |draws| && id.value == InstanceId(draws[k]) && AllTaken(reg, draws[..k])
    ensures id.None? ==> reg' == reg && AllTaken(reg, draws)
  {
    var k := 0;
    while k < |draws| && InstanceId(draws[k]) in reg
      invariant 0 <= k <= |draws|
      invariant AllTaken(reg, draws[..k])
    {
      assert draws[..k + 1] == draws[..k] + [draws[k]];
      k := k + 1;
    }
    if k == |draws| {
      assert draws[..k] == draws;
      return None, reg;
    }
    id := Some(InstanceId(draws[k]));
    reg' := reg + {id.value};
  }

  /** Two successive constructions, the second one on the registry the
      first one left, never hand out the same id; both ids end up
      registered. */
  method ConstructedIdsDiffer(reg: Registry, draws1: seq<nat>, draws2: seq<nat>)
    returns (id1: Option<string>, id2: Option<string>, reg2: Registry)
    requires forall i :: 0 <= i < |draws1| ==> IsDraw(draws1[i])
    requires forall i :: 0 <= i < |draws2| ==> IsDraw(draws2[i])
    ensures id1.Some? && id2.Some? ==> id1.value != id2.value
    ensures id1.Some? ==> id1.value in reg2
    ensures id2.Some? ==> id2.value in reg2 && id2.value !in reg
    ensures reg <= reg2
  {
    var reg1;
    id1, reg1 := Construct(reg, draws1);
    id2, reg2 := Construct(reg1, draws2);
  }

  /** All ids the draws can produce. */
  function IdSpace(n: nat): set<string>
  {
    set d | 0 <= d < n :: InstanceId(d)
  }

  /** The first `n` draws name exactly `n` distinct ids, so there are
      exactly `max_id` ids in all. */
  lemma {:induction false} IdSpaceSize(n: nat)
    requires n <= MaxId
    ensures |IdSpace(n)| == n
  {
    if n > 0 {
      IdSpaceSize(n - 1);
      var last := InstanceId(n - 1);
      forall x ensures x in IdSpace(n) <==> x in IdSpace(n - 1) || x == last {
        if x in IdSpace(n) {
          var d :| 0 <= d < n && InstanceId(d) == x;
          if d < n - 1 {
            assert x in IdSpace(n - 1);
          }
        }
      }
      assert IdSpace(n) == IdSpace(n - 1) + {last};
      if last in IdSpace(n - 1) {
        var d :| 0 <= d < n - 1 && InstanceId(d) == last;
        InstanceIdShape(d, n - 1);
      }
    }
  }

  /** Once every one of the `max_id` ids is registered, by widgets of
      whatever classes, every draw names a registered id. */
  lemma FullRegistryCollides(reg: Registry, draws: seq<nat>)
    requires IdSpace(MaxId) <= reg
    requires forall i :: 0 <= i < |draws| ==> IsDraw(draws[i])
    ensures AllTaken(reg, draws)
  {
    forall j | 0 <= j < |draws| ensures InstanceId(draws[j]) in reg {
      assert InstanceId(draws[j]) in IdSpace(MaxId);
    }
  }

  /** A constructor facing a full registry finds no free id in any stream
      of draws, so it keeps drawing; the registry is left as it was. */
  method ConstructOnFullRegistry(reg: Registry, draws: seq<nat>) returns (id: Option<string>, reg': Registry)
    requires IdSpace(MaxId) <= reg
    requires forall i :: 0 <= i < |draws| ==> IsDraw(draws[i])
    ensures id.None? && reg' == reg
  {
    FullRegistryCollides(reg, draws);
    id, reg' := Construct(reg, draws);
  }
}

=== FILE: file_shelf.dfy ===
/** `FileShelf` of shelfdb/db.py: the older shelf class, a `shelve` file
    that only accepts dicts and tags what it reads with `'_id'`.

    It shares the in-memory `Store` with the newer API. Unlike
    `ShelfQuery.insert` it raises `ValueError` for a non-dict, lets the
    caller choose the id, and returns nothing.
 */
module FileShelf {
  import opened Wrappers
  import opened Values
  import opened Store
  import Query
  import Shelf

  /** `shelf[id_] = obj`: only a dict (of any dict class) is stored, under
      `id_`, replacing what was there; anything else is a `ValueError` and
      the shelf is unchanged. */
  function SetItem(s: Store, id: Id, obj: Value): (r: Result<Store>)
    requires Valid(s)
    ensures r.Err? <==> !IsDict(obj)
    ensures r.Err? ==> r.error == ValueError
    ensures r.Ok? ==> Valid(r.value) && r.value.records == s.records[id := obj.fields]
    ensures r.Ok? ==> s.order <= r.value.order
  {
    if IsDict(obj) then Ok(Put(s, id, obj.fields)) else Err(ValueError)
  }

  /** `shelf.insert(obj, id_)`: stores `obj` under `id_` when one is given,
      overwriting that key, and otherwise under `newId`, which stands for
      `str(uuid4())` and names no stored record. `obj` defaults to `None`,
      which is not a dict. */
  function Insert(s: Store, obj: Value, id: Option<Id>, newId: Id): (r: Result<Store>)
    requires Valid(s)
    requires id.None? ==> newId !in s.records
    ensures r.Err? <==> !IsDict(obj)
    ensures r.Err? ==> r.error == ValueError
    ensures r.Ok? ==> Valid(r.value)
    ensures r.Ok? ==>
      var key := if id.Some? then id.value else newId;
      && r.value.records.Keys == s.records.Keys + {key}
      && r.value.records[key] == obj.fields
      && (forall k :: k in s.records && k != key ==> r.value.records[k] == s.records[k])
  {
    SetItem(s, if id.Some? then id.value else newId, obj)
  }

  /** Without an id, `insert` adds a record; with one, it adds a record
      exactly when the id was not stored yet. */
  lemma InsertGrows(s: Store, obj: Value, id: Option<Id>, newId: Id)
    requires Valid(s) && (id.None? ==> newId !in s.records) && IsDict(obj)
    ensures var key := if id.Some? then id.value else newId;
      |Insert(s, obj, id, newId).value.records| == |s.records| + (if key in s.records then 0 else 1)
  {
    var key := if id.Some? then id.value else newId;
    var t := Insert(s, obj, id, newId).value;
    if key in s.records {
      assert t.records.Keys == s.records.Keys;
    } else {
      assert t.records.Keys == s.records.Keys + {key};
    }
  }

  /** `insert()` with no arguments stores nothing: `None` is not a dict. */
  lemma InsertNothingRejected(s: Store, id: Option<Id>, newId: Id)
    requires Valid(s) && (id.None? ==> newId !in s.records)
    ensures Insert(s, Null, id, newId) == Err(ValueError)
  {
  }

  /** `shelf.get(k)`: the stored dict with `'_id'` set to `k`, or a
      `KeyError` for a key the shelf does not hold. */
  function Get(s: Store, k: Id): (r: Result<Record>)
    ensures r.Ok? <==> k in s.records
    ensures r.Err? ==> r.error == KeyError
    ensures r.Ok? ==> IdKey in r.value && r.value[IdKey] == Str(k)
    ensures r.Ok? ==> r.value.Keys == s.records[k].Keys + {IdKey}
    ensures r.Ok? ==> forall f :: f in s.records[k] && f != IdKey ==> r.value[f] == s.records[k][f]
  {
    if k in s.records then
      TagSetsId(s.records[k], k);
      Ok(Tag(s.records[k], k))
    else Err(KeyError)
  }

  /** What `SetItem` stored comes back from `Get`, tagged with its key. */
  lemma SetItemThenGet(s: Store, id: Id, obj: Value)
    requires Valid(s) && IsDict(obj)
    ensures Get(SetItem(s, id, obj).value, id) == Ok(Tag(obj.fields, id))
  {
  }

  /** `shelf.all()`: one record per stored key, in the shelf's order, each
      tagged with its own key: the data of the entries `ShelfQuery` yields. */
  function All(s: Store): (r: seq<Record>)
    requires Valid(s)
    ensures |r| == |s.order|
  {
    Query.Map(Shelf.Iterate(s), (e: Shelf.Entry) => e.data)
  }

  /** Each record `all()` yields is what `get` answers for its key, and
      there is exactly one per stored key. */
  lemma AllYieldsEachRecord(s: Store)
    requires Valid(s)
    ensures |All(s)| == |s.records|
    ensures forall i :: 0 <= i < |s.order| ==> Get(s, s.order[i]) == Ok(All(s)[i])
    ensures forall k :: k in s.records ==> exists i :: 0 <= i < |s.order| && s.order[i] == k && All(s)[i] == Get(s, k).value
  {
    OrderLength(s);
    var r := All(s);
    forall i | 0 <= i < |s.order| ensures Get(s, s.order[i]) == Ok(r[i]) {
      assert r[i] == Shelf.Iterate(s)[i].data;
    }
    forall k | k in s.records
      ensures exists i :: 0 <= i < |s.order| && s.order[i] == k && r[i] == Get(s, k).value
    {
      var i :| 0 <= i < |s.order| && s.order[i] == k;
      assert Get(s, s.order[i]) == Ok(r[i]);
    }
  }

  /** `fn(record)` as the caller's function behaves on one record: a truth
      value, or `None` when it raises `KeyError` (a record lacking the key
      the function looks up). */
  type Predicate = Record -> Option<bool>

  /** Whether `filter` yields a record. */
  function Keeps(fn: Predicate): Record -> bool
  {
    (rec: Record) => fn(rec) == Some(true)
  }

  /** `shelf.filter(fn)`: the records of `all()` that `fn` accepts, in
      order. A `KeyError` raised by `fn` for one record abandons only that
      record and the generator goes on with the next. How the stream ends
      is not part of the model. */
  function Filter(s: Store, fn: Predicate): (r: seq<Record>)
    requires Valid(s)
    ensures |r| <= |s.records|
    ensures forall i :: 0 <= i < |r| ==> fn(r[i]) == Some(true) && r[i] in All(s)
    ensures forall i :: 0 <= i < |All(s)| && fn(All(s)[i]) == Some(true) ==> All(s)[i] in r
  {
    OrderLength(s);
    Query.Filter(All(s), Keeps(fn))
  }

  /** The records a `KeyError` abandons and the records `fn` rejects are
      both absent: `filter` with `fn` and with its negation, where `fn`
      never raises, split `all()` between them. */
  lemma FilterSplitsAll(s: Store, fn: Predicate, neg: Predicate)
    requires Valid(s)
    requires forall rec :: fn(rec).Some?
    requires forall rec :: neg(rec) == Some(!fn(rec).value)
    ensures |Filter(s, fn)| + |Filter(s, neg)| == |s.records|
  {
    OrderLength(s);
    Query.FilterPartition(All(s), Keeps(fn), Keeps(neg));
  }

  /** `FileShelf.filter` answers the data of the entries `ShelfQuery.filter`
      yields for the test that rejects a record where `fn` raises
      `KeyError`. Given `fn` itself, `ShelfQuery.filter` would instead pass
      that `KeyError` on to whoever iterates it. */
  lemma FilterAgreesWithShelfQuery(s: Store, fn: Predicate)
    requires Valid(s)
    ensures Filter(s, fn) ==
      Query.Map(Query.Filter(Shelf.Iterate(s), (e: Shelf.Entry) => fn(e.data) == Some(true)), (e: Shelf.Entry) => e.data)
  {
    Query.FilterOfMap(Shelf.Iterate(s), (e: Shelf.Entry) => e.data, Keeps(fn), (e: Shelf.Entry) => fn(e.data) == Some(true));
  }

  /** Where `fn` never raises, the two filters agree for `fn` itself: the
      entries `ShelfQuery.filter` yields are those whose data `fn` answers
      true for, and `FileShelf.filter` answers exactly their data. */
  lemma FilterAgreesWithShelfQueryWhenTotal(s: Store, fn: Predicate)
    requires Valid(s)
    requires forall rec :: fn(rec).Some?
    ensures Filter(s, fn) ==
      Query.Map(Query.Filter(Shelf.Iterate(s), (e: Shelf.Entry) => fn(e.data).value), (e: Shelf.Entry) => e.data)
  {
    Query.FilterOfMap(Shelf.Iterate(s), (e: Shelf.Entry) => e.data, Keeps(fn), (e: Shelf.Entry) => fn(e.data).value);
  }

  /** `shelf.delete()`: every key of a snapshot of the keys is deleted in
      turn, leaving the shelf empty. Closing and removing the file are not
      part of the model. */
  method Delete(s: Store) returns (r: Store)
    requires Valid(s)
    ensures Valid(r)
    ensures r.records == map[]
    ensures r.order == []
  {
    var keys := s.order;
    r := s;
    var n := 0;
    while n < |keys|
      invariant 0 <= n <= |keys|
      invariant Valid(r)
      invariant LeftAfter(s.records.Keys, r.records.Keys, keys, n)
    {
      DeleteStep(s.records.Keys, r.records.Keys, keys, n);
      r := Remove(r, keys[n]);
      n := n + 1;
    }
    assert keys[..n] == keys;
    assert r.records.Keys == {};
    OrderLength(r);
  }

  /** The keys left after deleting the first `n` of `keys` from `base`. */
  ghost predicate LeftAfter(base: set<Id>, cur: set<Id>, keys: seq<Id>, n: nat)
    requires n <= |keys|
  {
    forall k :: k in cur <==> k in base && k !in keys[..n]
  }

  lemma DeleteStep(base: set<Id>, cur: set<Id>, keys: seq<Id>, n: nat)
    requires n < |keys| && Query.Distinct(keys) && keys[n] in base
    requires LeftAfter(base, cur, keys, n)
    ensures keys[n] in cur
    ensures LeftAfter(base, cur - {keys[n]}, keys, n + 1)
  {
    assert keys[n] !in keys[..n];
    assert keys[..n + 1] == keys[..n] + [keys[n]];
  }
}

=== FILE: handle_cache.dfy ===
/** The table of open shelves kept by `DB` (shelfdb/shelf.py) and by the
    server-side `Shelf` (shelfdb/db.py).

    Asking for a shelf by name answers the cached handle while it is open
    and opens (and caches) a new one when the name is unknown or its handle
    was closed. A handle is identified by the serial number of the open
    call that produced it; the file system itself is not part of this
    model.
 */
module HandleCache {
  /** One open (or since closed) shelf file. */
  datatype Handle = Handle(serial: nat, closed: bool)

  /** `self._shelf`: name to handle, and how many files were opened so far. */
  datatype Cache = Cache(handles: map<string, Handle>, opens: nat)

  /** Every cached handle came from an earlier open, and no two names share
      one. */
  ghost predicate Valid(c: Cache) {
    && (forall n :: n in c.handles ==> c.handles[n].serial < c.opens)
    && (forall n, m :: n in c.handles && m in c.handles && n != m ==>
          c.handles[n].serial != c.handles[m].serial)
  }

  function Empty(): (r: Cache)
    ensures Valid(r) && r.handles == map[] && r.opens == 0
  {
    Cache(map[], 0)
  }

  /** `db.shelf(name)`: the cached handle if it is still open, otherwise a
      freshly opened one, which replaces the cached entry. The answer is
      always open and is what the cache now holds for `name`; no other name
      changes. */
  function Acquire(c: Cache, name: string): (r: (Cache, Handle))
    requires Valid(c)
    ensures Valid(r.0)
    ensures !r.1.closed
    ensures name in r.0.handles && r.0.handles[name] == r.1
    ensures forall n :: n in c.handles && n != name ==> n in r.0.handles && r.0.handles[n] == c.handles[n]
    ensures r.0.handles.Keys == c.handles.Keys + {name}
    ensures name in c.handles && !c.handles[name].closed ==> r == (c, c.handles[name])
    ensures !(name in c.handles && !c.handles[name].closed) ==>
      && r.1.serial == c.opens
      && r.0.opens == c.opens + 1
  {
    if name !in c.handles || c.handles[name].closed then
      var h := Handle(c.opens, false);
      (Cache(c.handles[name := h], c.opens + 1), h)
    else
      (c, c.handles[name])
  }

  /** `db.close()`: every cached handle is closed and stays cached. */
  function CloseAll(c: Cache): (r: Cache)
    requires Valid(c)
    ensures Valid(r)
    ensures r.handles.Keys == c.handles.Keys
    ensures r.opens == c.opens
    ensures forall n :: n in r.handles ==>
      r.handles[n].closed && r.handles[n].serial == c.handles[n].serial
  {
    Cache(map n | n in c.handles :: Handle(c.handles[n].serial, true), c.opens)
  }

  /** Asking twice in a row answers the same handle and changes nothing the
      second time. */
  lemma AcquireIdempotent(c: Cache, name: string)
    requires Valid(c)
    ensures var (c1, h1) := Acquire(c, name);
      Acquire(c1, name) == (c1, h1)
  {
  }

  /** After `close()`, asking for a shelf opens a new handle: it is not the
      one handed out before. */
  lemma ReopenAfterClose(c: Cache, name: string)
    requires Valid(c)
    ensures var (c1, h1) := Acquire(c, name);
      var (c2, h2) := Acquire(CloseAll(c1), name);
      h2 != h1 && h2.serial != h1.serial && !h2.closed
  {
  }

  /** Two different names are never answered with the same handle. */
  lemma DistinctNamesDistinctHandles(c: Cache, a: string, b: string)
    requires Valid(c) && a != b
    ensures var (c1, ha) := Acquire(c, a);
      var (c2, hb) := Acquire(c1, b);
      ha.serial != hb.serial
  {
    var (c1, ha) := Acquire(c, a);
    assert c1.handles[a] == ha;
  }
}

=== FILE: input_tag.dfy ===
/** `InputTag` of docs/_component/sidebar/sidebar.js: a row of tag chips
    followed by an editable box.

    The chips are kept as the list of their texts in document order (each
    new chip is inserted just before the box, so after the others), and the
    box as the text typed so far. Key and blur events become transition
    functions; what the browser's own editing does with a key is not part
    of the model.
 */
module InputTag {
  import opened Wrappers

  // ---------------------------------------------------------------------
  // String.prototype.trim

  /** The characters `trim()` strips: ECMAScript WhiteSpace and
      LineTerminator. */
  predicate IsSpace(c: char) {
    var n := c as int;
    || 0x09 <= n <= 0x0D || n == 0x20 || n == 0xA0 || n == 0x1680
    || 0x2000 <= n <= 0x200A || n == 0x2028 || n == 0x2029 || n == 0x202F
    || n == 0x205F || n == 0x3000 || n == 0xFEFF
  }

  function TrimStart(s: string): (r: string)
    ensures |r| <= |s| && r == s[|s| - |r|..]
    ensures r == [] || !IsSpace(r[0])
    ensures forall i :: 0 <= i < |s| - |r| ==> IsSpace(s[i])
  {
    if s != [] && IsSpace(s[0]) then TrimStart(s[1..]) else s
  }

  function TrimEnd(s: string): (r: string)
    ensures |r| <= |s| && r == s[..|r|]
    ensures r == [] || !IsSpace(r[|r| - 1])
    ensures forall i :: |r| <= i < |s| ==> IsSpace(s[i])
  {
    if s != [] && IsSpace(s[|s| - 1]) then TrimEnd(s[..|s| - 1]) else s
  }

  /** `s.trim()`: `s` without its leading and trailing white space (see
      `TrimKeepsMiddle`). */
  function Trim(s: string): (r: string)
    ensures |r| <= |s|
    ensures r == [] || (!IsSpace(r[0]) && !IsSpace(r[|r| - 1]))
  {
    TrimEnd(TrimStart(s))
  }

  /** Trimming keeps the middle of `s` and cuts only white space: there is
      a position `i` with the result at `s[i..i + |r|]`, and everything before
      `i` and after the result is white space. */
  lemma TrimKeepsMiddle(s: string)
    ensures var r := Trim(s);
      var i := |s| - |TrimStart(s)|;
      && i + |r| <= |s| && (forall k :: 0 <= k < |r| ==> r[k] == s[i + k])
      && (forall j :: 0 <= j < i ==> IsSpace(s[j]))
      && (forall j :: i + |r| <= j < |s| ==> IsSpace(s[j]))
  {
    var t := TrimStart(s);
    assert Trim(s) == TrimEnd(t);
    TrimEndOfSuffix(s, t);
  }

  /** Trimming the end of the suffix `t` of `s` keeps the piece of `s` where
      `t` starts and cuts only white space after it. */
  lemma TrimEndOfSuffix(s: string, t: string)
    requires |t| <= |s| && t == s[|s| - |t|..]
    ensures var r := TrimEnd(t);
      var i := |s| - |t|;
      && (forall k :: 0 <= k < |r| ==> r[k] == s[i + k])
      && (forall j :: i + |r| <= j < |s| ==> IsSpace(s[j]))
  {
    var r := TrimEnd(t);
    var i := |s| - |t|;
    forall j | i + |r| <= j < |s| ensures IsSpace(s[j]) {
      assert s[j] == t[j - i];
    }
  }

  /** A string with no white space at either end is its own trim. */
  lemma TrimOfTrimmed(s: string)
    requires s == [] || (!IsSpace(s[0]) && !IsSpace(s[|s| - 1]))
    ensures Trim(s) == s
  {
  }

  lemma TrimIdempotent(s: string)
    ensures Trim(Trim(s)) == Trim(s)
  {
    TrimOfTrimmed(Trim(s));
  }

  /** White space only trims to nothing. */
  lemma TrimOfBlank(s: string)
    requires forall i :: 0 <= i < |s| ==> IsSpace(s[i])
    ensures Trim(s) == ""
  {
  }

  // ---------------------------------------------------------------------
  // chips

  /** The chip texts in order, and the text in the edit box. */
  datatype State = State(chips: seq<string>, buffer: string)

  /** Some chip's trimmed text is `v`. */
  predicate HasTag(chips: seq<string>, v: string) {
    exists i :: 0 <= i < |chips| && Trim(chips[i]) == v
  }

  /** `addTag(value)` as written: nothing for `""` or for a value some chip
      already shows once trimmed; otherwise a new chip with exactly `value`
      goes last. The value itself is not trimmed. */
  function AddTagAsWritten(chips: seq<string>, v: string): (r: seq<string>)
    ensures v == "" || HasTag(chips, v) ==> r == chips
    ensures !(v == "" || HasTag(chips, v)) ==> r == chips + [v]
  {
    if v == "" || HasTag(chips, v) then chips else chips + [v]
  }

  /** `addTag` with the value trimmed first, so that a chip is never blank
      and never shows the same text as another; see `AddTagAsWritten`. */
  function AddTag(chips: seq<string>, v: string): (r: seq<string>)
    ensures r == chips || r == chips + [Trim(v)]
    ensures Trim(v) == "" ==> r == chips
  {
    AddTagAsWritten(chips, Trim(v))
  }

  /** Chips as Enter and blur leave them: each one trimmed and not empty,
      and no two equal. */
  predicate Tidy(chips: seq<string>) {
    && (forall i :: 0 <= i < |chips| ==> chips[i] != "" && Trim(chips[i]) == chips[i])
    && (forall i, j :: 0 <= i < j < |chips| ==> chips[i] != chips[j])
  }

  /** Adding a tag keeps the chips tidy, and afterwards the tag is shown
      exactly once, unless it trims to nothing. */
  lemma AddTagKeepsTidy(chips: seq<string>, v: string)
    requires Tidy(chips)
    ensures Tidy(AddTag(chips, v))
    ensures Trim(v) != "" ==> Trim(v) in AddTag(chips, v)
    ensures Trim(v) == "" ==> AddTag(chips, v) == chips
  {
    var t := Trim(v);
    TrimIdempotent(v);
    HasTagOfTidy(chips, t);
    if t != "" && t !in chips {
      AppendKeepsTidy(chips, t);
    }
  }

  /** A trimmed, non-empty text not yet among tidy chips can go last. */
  lemma AppendKeepsTidy(chips: seq<string>, t: string)
    requires Tidy(chips) && t != "" && Trim(t) == t && t !in chips
    ensures Tidy(chips + [t])
  {
    var r := chips + [t];
    forall i, j | 0 <= i < j < |r| ensures r[i] != r[j] {
      if j < |chips| {
        assert r[i] == chips[i] && r[j] == chips[j];
      }
    }
  }

  /** Enter and blur: the trimmed box text is added as a tag and the box is
      emptied. */
  function Commit(st: State): (r: State)
    ensures r.buffer == ""
    ensures |st.chips| <= |r.chips| <= |st.chips| + 1
    ensures r.chips[..|st.chips|] == st.chips
  {
    var c := AddTag(st.chips, st.buffer);
    assert c != st.chips ==> c[..|st.chips|] == (st.chips + [Trim(st.buffer)])[..|st.chips|];
    State(c, "")
  }

  /** Enter gives `addTag` a trimmed text, so the chip it adds is the same
      whether or not `addTag` trims again. */
  lemma CommitAsWritten(st: State)
    ensures Commit(st).chips == AddTagAsWritten(st.chips, Trim(st.buffer))
  {
  }

  /** After Enter or blur the typed text is shown as a tag, unless it was
      blank, and the chips stay tidy. */
  lemma CommitShowsTag(st: State)
    requires Tidy(st.chips)
    ensures Tidy(Commit(st).chips)
    ensures Trim(st.buffer) != "" ==> Trim(st.buffer) in Commit(st).chips
    ensures Trim(st.buffer) == "" ==> Commit(st) == State(st.chips, "")
  {
    AddTagKeepsTidy(st.chips, st.buffer);
  }

  /** Backspace as written: with a blank box it removes the box's previous
      sibling, the last chip; with no chip that sibling is `null` and the
      call throws a `TypeError`. Otherwise nothing happens here. */
  function BackspaceAsWritten(st: State): (r: Result<State>)
    ensures r.Err? <==> Trim(st.buffer) == "" && st.chips == []
    ensures r.Err? ==> r.error == TypeError
    ensures r.Ok? && Trim(st.buffer) == "" ==> r.value == State(st.chips[..|st.chips| - 1], st.buffer)
    ensures r.Ok? && Trim(st.buffer) != "" ==> r.value == st
  {
    if Trim(st.buffer) != "" then Ok(st)
    else if st.chips == [] then Err(TypeError)
    else Ok(State(st.chips[..|st.chips| - 1], st.buffer))
  }

  /** Backspace with the empty-row case handled: a blank box removes the
      last chip if there is one. */
  function Backspace(st: State): (r: State)
    ensures r.buffer == st.buffer
    ensures Trim(st.buffer) == "" && st.chips != [] ==> r.chips == st.chips[..|st.chips| - 1]
    ensures Trim(st.buffer) != "" || st.chips == [] ==> r == st
  {
    if Trim(st.buffer) == "" && st.chips != [] then State(st.chips[..|st.chips| - 1], st.buffer) else st
  }

  /** The two agree whenever the code as written does not throw. */
  lemma BackspaceAgrees(st: State)
    requires BackspaceAsWritten(st).Ok?
    ensures BackspaceAsWritten(st) == Ok(Backspace(st))
  {
  }

  /** Backspace on an empty row with an empty box throws. */
  lemma BackspaceOnEmptyRowThrows()
    ensures BackspaceAsWritten(State([], "")) == Err(TypeError)
    ensures Backspace(State([], "")) == State([], "")
  {
  }

  /** Removing the last chip keeps the rest tidy. */
  lemma BackspaceKeepsTidy(st: State)
    requires Tidy(st.chips)
    ensures Tidy(Backspace(st).chips)
  {
  }

  // ---------------------------------------------------------------------
  // the `tags` property

  /** `get tags()`: each chip's text, trimmed. */
  function Tags(chips: seq<string>): (r: seq<string>)
    ensures |r| == |chips|
    ensures forall i :: 0 <= i < |chips| ==> r[i] == Trim(chips[i])
  {
    if chips == [] then [] else Tags(chips[..|chips| - 1]) + [Trim(chips[|chips| - 1])]
  }

  /** `addTags(values)` on top of `chips`, with the given `addTag`. */
  function AddAllAsWritten(chips: seq<string>, xs: seq<string>): (r: seq<string>)
    ensures |chips| <= |r| <= |chips| + |xs| && r[..|chips|] == chips
    ensures forall i :: |chips| <= i < |r| ==> r[i] in xs
  {
    if xs == [] then chips else AddTagAsWritten(AddAllAsWritten(chips, xs[..|xs| - 1]), xs[|xs| - 1])
  }

  /** `addTags(values)` with each value trimmed first. */
  function AddAll(chips: seq<string>, xs: seq<string>): (r: seq<string>)
    ensures |chips| <= |r| <= |chips| + |xs| && r[..|chips|] == chips
  {
    if xs == [] then chips else AddTag(AddAll(chips, xs[..|xs| - 1]), xs[|xs| - 1])
  }

  /** `set tags(xs)` as written: every chip is removed, then `xs` is added
      in order. */
  function SetTagsAsWritten(xs: seq<string>): (r: seq<string>)
    ensures |r| <= |xs|
    ensures forall i :: 0 <= i < |r| ==> r[i] in xs
  {
    AddAllAsWritten([], xs)
  }

  /** `set tags(xs)` with each value trimmed as `addTag` receives it. */
  function SetTags(xs: seq<string>): (r: seq<string>)
    ensures |r| <= |xs|
  {
    AddAll([], xs)
  }

  /** The reference: `xs` without empty strings and without repeats,
      first occurrences kept in order. */
  function Dedup(xs: seq<string>): (r: seq<string>)
  {
    if xs == [] then []
    else
      var d := Dedup(xs[..|xs| - 1]);
      var x := xs[|xs| - 1];
      if x == "" || x in d then d else d + [x]
  }

  /** On tidy chips, showing a tag is holding it. */
  lemma HasTagOfTidy(chips: seq<string>, v: string)
    requires Tidy(chips)
    ensures HasTag(chips, v) <==> v in chips
  {
    if v in chips {
      var i :| 0 <= i < |chips| && chips[i] == v;
      assert Trim(chips[i]) == v;
    }
  }

  /** Setting the tags always leaves tidy chips: the trimmed values with
      blanks and repeats dropped, first occurrences kept. */
  lemma {:induction false} SetTagsIsDedup(xs: seq<string>)
    ensures Tidy(SetTags(xs))
    ensures SetTags(xs) == Dedup(Tags(xs))
  {
    if xs != [] {
      var init := xs[..|xs| - 1];
      var x := xs[|xs| - 1];
      SetTagsIsDedup(init);
      var c := SetTags(init);
      AddTagKeepsTidy(c, x);
      assert Tags(xs)[..|xs| - 1] == Tags(init);
      HasTagOfTidy(c, Trim(x));
    }
  }

  /** The tags read back after setting them are the chips themselves. */
  lemma SetTagsReadBack(xs: seq<string>)
    ensures Tags(SetTags(xs)) == SetTags(xs)
  {
    SetTagsIsDedup(xs);
    TagsOfTidy(SetTags(xs));
  }

  lemma TagsOfTidy(chips: seq<string>)
    requires Tidy(chips)
    ensures Tags(chips) == chips
  {
  }

  /** Values that are already trimmed are set the same way with or without
      the extra trim. */
  lemma {:induction false} SetTagsOfTrimmed(xs: seq<string>)
    requires forall i :: 0 <= i < |xs| ==> Trim(xs[i]) == xs[i]
    ensures SetTagsAsWritten(xs) == SetTags(xs)
  {
    if xs != [] {
      SetTagsOfTrimmed(xs[..|xs| - 1]);
    }
  }

  /** White space in front of a value trims away. */
  lemma TrimLeadingSpace(c: char, s: string)
    requires IsSpace(c)
    ensures Trim([c] + s) == Trim(s)
  {
    assert ([c] + s)[1..] == s;
  }

  /** A single trimmed value becomes a single chip either way. */
  lemma SetOneTag(t: string)
    requires t != "" && Trim(t) == t
    ensures AddAllAsWritten([], [t]) == [t]
    ensures AddAll([], [t]) == [t]
  {
    assert [t][..0] == [];
  }

  lemma SetTwoAsWritten(t: string, c: char)
    requires t != "" && Trim(t) == t && IsSpace(c)
    ensures SetTagsAsWritten([t, [c] + t]) == [t, [c] + t]
  {
    var u := [c] + t;
    SetOneTag(t);
    assert [t, u][..1] == [t];
    assert |u| == |t| + 1;
    assert !HasTag([t], u);
  }

  lemma SetTwoTrimmed(t: string, c: char)
    requires t != "" && Trim(t) == t && IsSpace(c)
    ensures SetTags([t, [c] + t]) == [t]
  {
    var u := [c] + t;
    var xs := [t, u];
    TrimLeadingSpace(c, t);
    SetOneTag(t);
    assert xs[..1] == [t];
    assert AddAll([], xs) == AddTag(AddAll([], [t]), u);
    assert HasTag([t], t) by {
      assert Trim([t][0]) == t;
    }
    assert AddTag([t], u) == AddTagAsWritten([t], t) == [t];
  }

  /** A value with white space in front slips past the check as written:
      setting `[t, " " + t]` shows the tag `t` twice, where trimming first
      shows it once. */
  lemma SetTagsAsWrittenRepeats(t: string, c: char)
    requires t != "" && Trim(t) == t && IsSpace(c)
    ensures SetTagsAsWritten([t, [c] + t]) == [t, [c] + t]
    ensures Tags(SetTagsAsWritten([t, [c] + t])) == [t, t]
    ensures SetTags([t, [c] + t]) == [t]
  {
    SetTwoAsWritten(t, c);
    SetTwoTrimmed(t, c);
    TrimLeadingSpace(c, t);
    var r := Tags([t, [c] + t]);
    assert r[0] == t && r[1] == t;
  }
}

=== FILE: query.dfy ===
/** The query operations of shelf.py, over the sequence an iteration yields.

    A `ShelfQuery` iterates its shelf; every `ChainQuery` it returns wraps a
    Python iterator (`filter`, `map`, `islice`, `sorted`). The model treats
    each of them as the finite sequence it yields, in order, so that every
    query operation is a function from one sequence to another.
 */
module Query {
  import opened Wrappers

  /** No element occurs twice. */
  ghost predicate Distinct<T>(xs: seq<T>) {
    forall i, j :: 0 <= i < j < |xs| ==> xs[i] != xs[j]
  }

  // ---------------------------------------------------------------------
  // filter

  /** `filter(p, xs)`: the elements of `xs` that satisfy `p`. */
  function Filter<T>(xs: seq<T>, p: T -> bool): (r: seq<T>)
    ensures |r| <= |xs|
    ensures forall i :: 0 <= i < |r| ==> r[i] in xs && p(r[i])
    ensures forall i :: 0 <= i < |xs| && p(xs[i]) ==> xs[i] in r
  {
    if xs == [] then []
    else if p(xs[0]) then [xs[0]] + Filter(xs[1..], p)
    else Filter(xs[1..], p)
  }

  /** Filtering keeps the iteration order: it distributes over
      concatenation. */
  lemma {:induction false} FilterAppend<T>(a: seq<T>, b: seq<T>, p: T -> bool)
    ensures Filter(a + b, p) == Filter(a, p) + Filter(b, p)
  {
    if a == [] {
      assert a + b == b;
    } else {
      assert (a + b)[1..] == a[1..] + b;
      FilterAppend(a[1..], b, p);
    }
  }

  /** Each element goes to exactly one side of a predicate. */
  lemma {:induction false} FilterPartition<T>(xs: seq<T>, p: T -> bool, q: T -> bool)
    requires forall x :: q(x) == !p(x)
    ensures |Filter(xs, p)| + |Filter(xs, q)| == |xs|
  {
    if xs != [] {
      FilterPartition(xs[1..], p, q);
    }
  }

  /** Filtering never introduces duplicates. */
  lemma {:induction false} FilterDistinct<T>(xs: seq<T>, p: T -> bool)
    requires Distinct(xs)
    ensures Distinct(Filter(xs, p))
  {
    if xs != [] {
      FilterDistinct(xs[1..], p);
      assert xs[0] !in xs[1..];
    }
  }

  // ---------------------------------------------------------------------
  // first

  /** `next(filter(p, xs))`, with `None` for `StopIteration`. */
  function First<T>(xs: seq<T>, p: T -> bool): (r: Option<T>)
    ensures r.None? <==> forall i :: 0 <= i < |xs| ==> !p(xs[i])
    ensures r.Some? ==> p(r.value) && r.value in xs
  {
    if xs == [] then None
    else if p(xs[0]) then Some(xs[0])
    else First(xs[1..], p)
  }

  /** `first(p)` is the head of `filter(p)`, and every element before it
      fails `p`. */
  lemma {:induction false} FirstIsHeadOfFilter<T>(xs: seq<T>, p: T -> bool)
    ensures First(xs, p).None? <==> Filter(xs, p) == []
    ensures First(xs, p).Some? ==> First(xs, p).value == Filter(xs, p)[0]
    ensures First(xs, p).Some? ==>
      exists i :: 0 <= i < |xs| && xs[i] == First(xs, p).value &&
        forall j :: 0 <= j < i ==> !p(xs[j])
  {
    if xs != [] && !p(xs[0]) {
      FirstIsHeadOfFilter(xs[1..], p);
      if First(xs, p).Some? {
        var i :| 0 <= i < |xs[1..]| && xs[1..][i] == First(xs, p).value &&
          forall j :: 0 <= j < i ==> !p(xs[1..][j]);
        assert xs[i + 1] == First(xs, p).value;
        assert forall j :: 0 <= j < i + 1 ==> !p(xs[j]) by {
          forall j | 0 <= j < i + 1 ensures !p(xs[j]) {
            if j > 0 {
              assert xs[j] == xs[1..][j - 1];
            }
          }
        }
      }
    } else if xs != [] {
      assert xs[0] == First(xs, p).value;
    }
  }

  // ---------------------------------------------------------------------
  // map

  /** `map(f, xs)` */
  function Map<T, U>(xs: seq<T>, f: T -> U): (r: seq<U>)
    ensures |r| == |xs|
    ensures forall i :: 0 <= i < |xs| ==> r[i] == f(xs[i])
  {
    if xs == [] then [] else [f(xs[0])] + Map(xs[1..], f)
  }

  /** Filtering the mapped sequence is mapping the elements whose image
      passes the filter. */
  lemma {:induction false} FilterOfMap<T, U>(xs: seq<T>, f: T -> U, p: U -> bool, q: T -> bool)
    requires forall x :: q(x) == p(f(x))
    ensures Filter(Map(xs, f), p) == Map(Filter(xs, q), f)
  {
    if xs != [] {
      assert Map(xs, f)[1..] == Map(xs[1..], f);
      FilterOfMap(xs[1..], f, p, q);
    }
  }

  // ---------------------------------------------------------------------
  // reduce

  /** `functools.reduce(fn, xs, init)`: a left fold. It starts from
      `init`, and the last element is combined last, with the fold of the
      ones before it. */
  function Reduce<A, T>(xs: seq<T>, fn: (A, T) -> A, init: A): (r: A)
    ensures xs == [] ==> r == init
    ensures xs != [] ==> r == fn(Reduce(xs[..|xs| - 1], fn, init), xs[|xs| - 1])
  {
    if xs == [] then init
    else
      assert |xs| == 1 ==> xs[..0] == [] && xs[1..] == [];
      assert |xs| > 1 ==> xs[..|xs| - 1][1..] == xs[1..][..|xs| - 2];
      Reduce(xs[1..], fn, fn(init, xs[0]))
  }

  /** Reducing a concatenation reduces the second part from the result of
      the first. */
  lemma {:induction false} ReduceAppend<A, T>(a: seq<T>, b: seq<T>, fn: (A, T) -> A, init: A)
    ensures Reduce(a + b, fn, init) == Reduce(b, fn, Reduce(a, fn, init))
  {
    if a == [] {
      assert a + b == b;
    } else {
      assert (a + b)[1..] == a[1..] + b;
      ReduceAppend(a[1..], b, fn, fn(init, a[0]));
    }
  }

  /** `reduce(lambda x, _: x + 1, n)` adds the number of elements to `n`. */
  lemma {:induction false} ReduceCounts<T>(xs: seq<T>, step: (int, T) -> int, n: int)
    requires forall acc, x :: step(acc, x) == acc + 1
    ensures Reduce(xs, step, n) == n + |xs|
  {
    if xs != [] {
      ReduceCounts(xs[1..], step, n + 1);
    }
  }

  /** `ShelfQuery.reduce(fn)` with its default `initializer=None`: the
      `None` is handed on to `functools.reduce` as an explicit initial
      value, so the fold starts from `None` rather than from the first
      element. `none` stands for Python's `None`. */
  function ReduceOmittedInitAsWritten<T>(xs: seq<T>, fn: (T, T) -> T, none: T): (r: T)
    ensures xs == [] ==> r == none
    ensures |xs| == 1 ==> r == fn(none, xs[0])
  {
    if |xs| == 1 then
      assert xs[1..] == [];
      assert Reduce(xs[1..], fn, fn(none, xs[0])) == fn(none, xs[0]);
      Reduce(xs, fn, none)
    else
      Reduce(xs, fn, none)
  }

  /** `functools.reduce(fn, xs)` with no initializer: the fold starts from
      the first element, and an empty sequence is a `TypeError`. */
  function ReduceOmittedInit<T>(xs: seq<T>, fn: (T, T) -> T): (r: Result<T>)
    ensures r.Err? <==> xs == []
    ensures r.Err? ==> r.error == TypeError
    ensures |xs| == 1 ==> r == Ok(xs[0])
  {
    if xs == [] then Err(TypeError) else Ok(Reduce(xs[1..], fn, xs[0]))
  }

  /** The two readings agree whenever `None` is a left identity of the
      reducing function. */
  lemma ReduceOmittedInitAgrees<T>(xs: seq<T>, fn: (T, T) -> T, none: T)
    requires xs != []
    requires forall x :: fn(none, x) == x
    ensures ReduceOmittedInitAsWritten(xs, fn, none) == ReduceOmittedInit(xs, fn).value
  {
  }

  /** On a one-element query the two readings agree exactly when `None` is
      a left identity for that element: agreeing on every one-element query
      forces `None` to be a left identity. */
  lemma ReduceOmittedInitAgreesOnlyIf<T>(x: T, fn: (T, T) -> T, none: T)
    ensures ReduceOmittedInitAsWritten([x], fn, none) == ReduceOmittedInit([x], fn).value <==> fn(none, x) == x
  {
  }

  /** A one-element query reduced by "keep the accumulator": as written it
      answers `None`; without the initializer it answers the element. */
  lemma ReduceOmittedInitDiffers()
    ensures ReduceOmittedInitAsWritten([1], (acc: int, x: int) => acc, 0) == 0
    ensures ReduceOmittedInit([1], (acc: int, x: int) => acc) == Ok(1)
  {
  }

  // ---------------------------------------------------------------------
  // islice

  /** The elements at positions `b`, `b + step`, ... below `hi`. */
  function SliceFrom<T>(xs: seq<T>, b: nat, hi: nat, step: nat): seq<T>
    requires hi <= |xs| && step > 0
    decreases hi - b
  {
    if b >= hi then [] else [xs[b]] + SliceFrom(xs, b + step, hi, step)
  }

  lemma ShiftStep(b: int, k: int, step: int)
    ensures b + k * step == (b + step) + (k - 1) * step
  {
  }

  /** `r` takes every `step`-th element of `xs` from `b` on and stops
      before `hi`: its `k`-th element is the one at `b + k * step`, and the
      next such position is at or past `hi`. */
  ghost predicate TakesEvery<T>(xs: seq<T>, b: int, hi: int, step: int, r: seq<T>)
    requires 0 <= b && hi <= |xs| && step > 0
  {
    && (forall k :: 0 <= k < |r| ==> b + k * step < hi && r[k] == xs[b + k * step])
    && b + |r| * step >= hi
  }

  /** The `k`-th element taken is the one at `b + k * step`, and the taking
      stops at the first such position at or past `hi`. */
  lemma {:induction false} SliceFromPositions<T>(xs: seq<T>, b: nat, hi: nat, step: nat)
    requires hi <= |xs| && step > 0
    ensures TakesEvery(xs, b, hi, step, SliceFrom(xs, b, hi, step))
    decreases hi - b
  {
    var r := SliceFrom(xs, b, hi, step);
    if b < hi {
      SliceFromPositions(xs, b + step, hi, step);
      var rest := SliceFrom(xs, b + step, hi, step);
      assert r == [xs[b]] + rest;
      forall k | 0 <= k < |r| ensures b + k * step < hi && r[k] == xs[b + k * step] {
        if k > 0 {
          ShiftStep(b, k, step);
          assert r[k] == rest[k - 1];
        }
      }
      ShiftStep(b, |r|, step);
    } else {
      assert |r| == 0;
    }
  }

  /** `sys.maxsize` on a 64-bit build: the largest `Py_ssize_t`. */
  const MaxSize: int := 0x7FFF_FFFF_FFFF_FFFF

  /** An index `islice` refuses: one that is negative, or that does not fit
      a `Py_ssize_t`. */
  predicate BadIndex(i: Option<int>) {
    i.Some? && (i.value < 0 || i.value > MaxSize)
  }

  /** A step `islice` refuses: below 1, or too large for a `Py_ssize_t`. */
  predicate BadStep(step: Option<int>) {
    step.Some? && (step.value < 1 || step.value > MaxSize)
  }

  /** `itertools.islice(xs, start, stop, step)`: `None` means "from the
      beginning", "to the end" and "every element"; an index outside
      0..`sys.maxsize` or a step outside 1..`sys.maxsize` is a
      `ValueError`. */
  function Slice<T>(xs: seq<T>, start: Option<int>, stop: Option<int>, step: Option<int>): (r: Result<seq<T>>)
    ensures r.Err? <==> BadIndex(start) || BadIndex(stop) || BadStep(step)
    ensures r.Err? ==> r.error == ValueError
    ensures r.Ok? ==>
      var b := if start.Some? then start.value else 0;
      var hi := if stop.Some? && stop.value < |xs| then stop.value else |xs|;
      var st := if step.Some? then step.value else 1;
      TakesEvery(xs, b, hi, st, r.value)
  {
    if BadIndex(start) || BadIndex(stop) then Err(ValueError)
    else if BadStep(step) then Err(ValueError)
    else
      var b := if start.Some? then start.value else 0;
      var hi := if stop.Some? && stop.value < |xs| then stop.value else |xs|;
      var st := if step.Some? then step.value else 1;
      SliceFromPositions(xs, b, hi, st);
      Ok(SliceFrom(xs, b, hi, st))
  }

  /** A slice only holds elements of the sliced sequence. */
  lemma SliceTakesElements<T>(xs: seq<T>, start: Option<int>, stop: Option<int>, step: Option<int>)
    requires Slice(xs, start, stop, step).Ok?
    ensures forall x :: x in Slice(xs, start, stop, step).value ==> x in xs
  {
    var r := Slice(xs, start, stop, step).value;
    var b := if start.Some? then start.value else 0;
    var hi := if stop.Some? && stop.value < |xs| then stop.value else |xs|;
    var st := if step.Some? then step.value else 1;
    forall x | x in r ensures x in xs {
      var k :| 0 <= k < |r| && r[k] == x;
      var j := b + k * st;
      assert 0 <= j < hi <= |xs| && r[k] == xs[j];
    }
  }

  lemma {:induction false} SliceFromUnit<T>(xs: seq<T>, b: nat, hi: nat)
    requires b <= hi <= |xs|
    ensures SliceFrom(xs, b, hi, 1) == xs[b..hi]
    decreases hi - b
  {
    if b < hi {
      SliceFromUnit(xs, b + 1, hi);
      assert xs[b..hi] == [xs[b]] + xs[b + 1..hi];
    }
  }

  /** With the default step, `islice` is the list slice `xs[start:stop]`
      clamped to the sequence. */
  lemma SliceIsListSlice<T>(xs: seq<T>, start: nat, stop: nat)
    requires start <= stop <= MaxSize
    ensures var b := if start < |xs| then start else |xs|;
            var hi := if stop < |xs| then stop else |xs|;
            Slice(xs, Some(start), Some(stop), None) == Ok(xs[b..hi])
  {
    var hi := if stop < |xs| then stop else |xs|;
    var r := SliceFrom(xs, start, hi, 1);
    assert Slice(xs, Some(start), Some(stop), None) == Ok(r);
    if start <= hi {
      SliceFromUnit(xs, start, hi);
    } else {
      assert r == [] && xs[|xs|..hi] == [];
    }
  }

  // ---------------------------------------------------------------------
  // sorted

  /** Ascending order of `key`. */
  ghost predicate SortedBy<T>(xs: seq<T>, key: T -> int) {
    forall i, j :: 0 <= i < j < |xs| ==> key(xs[i]) <= key(xs[j])
  }

  /** The elements whose key is `k`, in order. A sort is stable exactly
      when it leaves every such run as it found it. */
  function KeyRun<T>(xs: seq<T>, key: T -> int, k: int): seq<T>
  {
    if xs == [] then []
    else if key(xs[0]) == k then [xs[0]] + KeyRun(xs[1..], key, k)
    else KeyRun(xs[1..], key, k)
  }

  /** Insert `x` in front of the first element whose key is not smaller. */
  function InsertByKey<T>(x: T, ys: seq<T>, key: T -> int): seq<T>
  {
    if ys == [] || key(x) <= key(ys[0]) then [x] + ys
    else [ys[0]] + InsertByKey(x, ys[1..], key)
  }

  lemma {:induction false} InsertByKeyPermutes<T>(x: T, ys: seq<T>, key: T -> int)
    ensures multiset(InsertByKey(x, ys, key)) == multiset(ys) + multiset{x}
  {
    if ys != [] && key(x) > key(ys[0]) {
      InsertByKeyPermutes(x, ys[1..], key);
      assert ys == [ys[0]] + ys[1..];
    }
  }

  lemma {:induction false} InsertByKeySorted<T>(x: T, ys: seq<T>, key: T -> int)
    requires SortedBy(ys, key)
    ensures SortedBy(InsertByKey(x, ys, key), key)
  {
    if ys != [] && key(x) > key(ys[0]) {
      InsertByKeySorted(x, ys[1..], key);
      InsertByKeyPermutes(x, ys[1..], key);
      var r := InsertByKey(x, ys, key);
      forall i | 1 <= i < |r| ensures key(r[0]) <= key(r[i]) {
        var z := r[i];
        assert z in multiset(InsertByKey(x, ys[1..], key));
        assert z in multiset(ys[1..]) || z == x;
      }
    }
  }

  lemma {:induction false} InsertByKeyRun<T>(x: T, ys: seq<T>, key: T -> int, k: int)
    requires SortedBy(ys, key)
    ensures KeyRun(InsertByKey(x, ys, key), key, k) ==
      (if key(x) == k then [x] else []) + KeyRun(ys, key, k)
  {
    if ys == [] || key(x) <= key(ys[0]) {
      assert ([x] + ys)[1..] == ys;
    } else {
      InsertByKeyRun(x, ys[1..], key, k);
      assert ([ys[0]] + InsertByKey(x, ys[1..], key))[1..] == InsertByKey(x, ys[1..], key);
    }
  }

  /** Stable insertion sort by `key`. */
  function SortBy<T>(xs: seq<T>, key: T -> int): (r: seq<T>)
    ensures multiset(r) == multiset(xs)
    ensures SortedBy(r, key)
    ensures forall k :: KeyRun(r, key, k) == KeyRun(xs, key, k)
  {
    if xs == [] then []
    else
      var rest := SortBy(xs[1..], key);
      SortByStep(xs, rest, key);
      InsertByKey(xs[0], rest, key)
  }

  /** Inserting the head into the sorted tail sorts the whole sequence,
      keeping its elements and its runs of equal keys. */
  lemma SortByStep<T>(xs: seq<T>, rest: seq<T>, key: T -> int)
    requires xs != []
    requires multiset(rest) == multiset(xs[1..]) && SortedBy(rest, key)
    requires forall k :: KeyRun(rest, key, k) == KeyRun(xs[1..], key, k)
    ensures var r := InsertByKey(xs[0], rest, key);
      && multiset(r) == multiset(xs)
      && SortedBy(r, key)
      && forall k :: KeyRun(r, key, k) == KeyRun(xs, key, k)
  {
    InsertByKeyPermutes(xs[0], rest, key);
    InsertByKeySorted(xs[0], rest, key);
    assert xs == [xs[0]] + xs[1..];
    forall k ensures KeyRun(InsertByKey(xs[0], rest, key), key, k) == KeyRun(xs, key, k) {
      InsertByKeyRun(xs[0], rest, key, k);
    }
  }

  /** Negating the key leaves each run of equal keys unchanged. */
  lemma {:induction false} KeyRunNegated<T>(xs: seq<T>, key: T -> int, neg: T -> int, k: int)
    requires forall x :: neg(x) == -key(x)
    ensures KeyRun(xs, neg, -k) == KeyRun(xs, key, k)
  {
    if xs != [] {
      KeyRunNegated(xs[1..], key, neg, k);
    }
  }

  /** `sorted(xs, key=key, reverse=reverse)`: a permutation of `xs`, ordered
      by `key` (descending when `reverse`), and stable either way: elements
      with equal keys keep their iteration order. */
  function Sort<T>(xs: seq<T>, key: T -> int, reverse: bool): (r: seq<T>)
    ensures multiset(r) == multiset(xs)
    ensures forall i, j :: 0 <= i < j < |r| ==>
      if reverse then key(r[i]) >= key(r[j]) else key(r[i]) <= key(r[j])
    ensures forall k :: KeyRun(r, key, k) == KeyRun(xs, key, k)
  {
    if !reverse then SortBy(xs, key)
    else
      var neg := (x: T) => -key(x);
      var r := SortBy(xs, neg);
      assert forall k :: KeyRun(r, key, k) == KeyRun(xs, key, k) by {
        forall k ensures KeyRun(r, key, k) == KeyRun(xs, key, k) {
          KeyRunNegated(r, key, neg, k);
          KeyRunNegated(xs, key, neg, k);
          assert KeyRun(r, neg, -k) == KeyRun(xs, neg, -k);
        }
      }
      r
  }

  // ---------------------------------------------------------------------
  // ChainQuery and run

  /** A `ChainQuery`: a wrapped iterator, holding what it has not yet
      yielded. Iterating it consumes it. */
  datatype Chain<T> = Chain(rest: seq<T>)

  /** `next(chain)`: the next element and the chain after it, or `None`
      (`StopIteration`) once it is used up. */
  function Next<T>(c: Chain<T>): (r: Option<(T, Chain<T>)>)
    ensures r.None? <==> c.rest == []
    ensures r.Some? ==> [r.value.0] + r.value.1.rest == c.rest
  {
    if c.rest == [] then None else Some((c.rest[0], Chain(c.rest[1..])))
  }

  /** Iterating a chain to its end: everything it holds, in order, and the
      used-up chain. */
  function Drain<T>(c: Chain<T>): (r: (seq<T>, Chain<T>))
    ensures r.1.rest == []
    ensures r.0 == c.rest
    decreases |c.rest|
  {
    match Next(c)
    case None => ([], c)
    case Some((x, c')) =>
      var (xs, end) := Drain(c');
      ([x] + xs, end)
  }

  /** A chained query yields its results once: a second pass yields
      nothing. */
  lemma DrainTwice<T>(c: Chain<T>)
    ensures Drain(Drain(c).1).0 == []
  {
  }

  /** A search for `p` over `s` that answered `v` left `t` unread: `t` is a
      suffix of `s`; on no match nothing is left; on a match, the match is
      the element just before `t` and every element ahead of it fails `p`. */
  ghost predicate Consumed<T>(s: seq<T>, v: Option<T>, t: seq<T>, p: T -> bool) {
    && |t| <= |s| && t == s[|s| - |t|..]
    && (v.None? ==> t == [])
    && (v.Some? ==>
      && |t| < |s|
      && s[|s| - |t| - 1] == v.value
      && (forall j :: 0 <= j < |s| - |t| - 1 ==> !p(s[j])))
  }

  /** `chain.first(p)`: `filter` draws from the chain's own iterator, so
      the search consumes the chain up to and including the match, or to
      its end when nothing matches. Answers the match and the chain left
      behind. */
  function ChainFirst<T>(c: Chain<T>, p: T -> bool): (r: (Option<T>, Chain<T>))
    ensures r.0 == First(c.rest, p)
    ensures Consumed(c.rest, r.0, r.1.rest, p)
    decreases |c.rest|
  {
    if c.rest == [] then (None, c)
    else if p(c.rest[0]) then (Some(c.rest[0]), Chain(c.rest[1..]))
    else
      var c' := Chain(c.rest[1..]);
      var r := ChainFirst(c', p);
      ChainFirstSkip(c.rest, c'.rest, r.0, r.1.rest, p);
      r
  }

  /** Skipping a head that fails `p`: what the search answered on the tail
      `u`, and what it left unread, hold for the whole sequence `s`. */
  lemma ChainFirstSkip<T>(s: seq<T>, u: seq<T>, v: Option<T>, t: seq<T>, p: T -> bool)
    requires s != [] && u == s[1..] && !p(s[0])
    requires v == First(u, p) && Consumed(u, v, t, p)
    ensures v == First(s, p) && Consumed(s, v, t, p)
  {
    if v.Some? {
      forall j | 0 <= j < |s| - |t| - 1 ensures !p(s[j]) {
        if j > 0 {
          assert s[j] == u[j - 1];
        }
      }
    }
  }

  /** Asking a chain twice for the first match answers two different
      results, where a shelf query answers the same entry both times. */
  lemma ChainFirstTwice<T>(a: T, b: T, p: T -> bool)
    requires p(a) && p(b)
    ensures ChainFirst(Chain([a, b]), p).0 == Some(a)
    ensures ChainFirst(ChainFirst(Chain([a, b]), p).1, p).0 == Some(b)
    ensures First([a, b], p) == Some(a)
  {
    assert [a, b][1..] == [b];
  }

  /** `run()`: the results that are not `None`, in order. */
  function Run<T>(xs: seq<Option<T>>): (r: seq<T>)
    ensures |r| <= |xs|
  {
    if xs == [] then []
    else if xs[0].None? then Run(xs[1..])
    else [xs[0].value] + Run(xs[1..])
  }

  /** The value of a present result; `d` for `None`, which `run()` never
      asks for. */
  function ValueOr<T>(x: Option<T>, d: T): T {
    if x.Some? then x.value else d
  }

  /** `run()` drops exactly the `None`s and keeps the order: it is the
      present results, in order, unwrapped. So it yields one value per
      present result, each one present in the input. */
  lemma {:induction false} RunKeepsPresent<T>(xs: seq<Option<T>>, d: T)
    ensures Run(xs) == Map(Filter(xs, (x: Option<T>) => x.Some?), (x: Option<T>) => ValueOr(x, d))
    ensures |Run(xs)| == |Filter(xs, (x: Option<T>) => x.Some?)|
    ensures forall i :: 0 <= i < |Run(xs)| ==> Some(Run(xs)[i]) in xs
  {
    var present := (x: Option<T>) => x.Some?;
    var value := (x: Option<T>) => ValueOr(x, d);
    if xs != [] {
      RunKeepsPresent(xs[1..], d);
      var rest := Filter(xs[1..], present);
      if xs[0].Some? {
        assert Filter(xs, present) == [xs[0]] + rest;
        assert ([xs[0]] + rest)[1..] == rest;
      }
    }
    var f := Filter(xs, present);
    forall i | 0 <= i < |Run(xs)| ensures Some(Run(xs)[i]) in xs {
      assert f[i] in xs && f[i].Some?;
    }
  }

  /** `run()` over results gathered in two parts is the two runs in
      order. */
  lemma {:induction false} RunAppend<T>(xs: seq<Option<T>>, ys: seq<Option<T>>)
    ensures Run(xs + ys) == Run(xs) + Run(ys)
  {
    if xs == [] {
      assert xs + ys == ys;
    } else {
      assert (xs + ys)[0] == xs[0];
      assert (xs + ys)[1..] == xs[1..] + ys;
      RunAppend(xs[1..], ys);
    }
  }

  /** With no `None` among the results, `run()` yields all of them. */
  lemma {:induction false} RunOfPresent<T>(xs: seq<Option<T>>)
    requires forall i :: 0 <= i < |xs| ==> xs[i].Some?
    ensures |Run(xs)| == |xs|
    ensures forall i :: 0 <= i < |xs| ==> Run(xs)[i] == xs[i].value
  {
    if xs != [] {
      RunOfPresent(xs[1..]);
    }
  }
}

=== FILE: shelf.dfy ===
/** `ShelfQuery` and `Entry` of shelfdb/shelf.py over an in-memory store.

    Iterating a `ShelfQuery` walks a snapshot of the shelf's keys (the dbm
    hands its keys out as a list) and reads each record when it gets there.
    Every bulk operation touches only the key of the entry in hand, so
    reading lazily and reading the snapshot up front give the same entries;
    the model reads the snapshot, `Iterate`.
 */
module Shelf {
  import opened Wrappers
  import opened Values
  import opened Store
  import Query

  /** An `Entry`: the dict read from the shelf, decorated with `'_id'`,
      together with the id it was read under (`Entry._id`). Its `data` is a
      copy: later changes to the shelf do not reach it. */
  datatype Entry = Entry(id: Id, data: Record)

  /** `Entry(shelf, id_, entry)` */
  function MakeEntry(id: Id, rec: Record): Entry
  {
    Entry(id, Tag(rec, id))
  }

  /** An entry always carries `'_id'` holding the id it was read under,
      beside every other stored key and value. */
  lemma EntryCarriesId(id: Id, rec: Record)
    ensures var e := MakeEntry(id, rec);
      && e.id == id
      && IdKey in e.data && e.data[IdKey] == Str(id)
      && e.data.Keys == rec.Keys + {IdKey}
      && (forall k :: k in rec && k != IdKey ==> e.data[k] == rec[k])
  {
  }

  /** No id occurs twice. */
  ghost predicate DistinctIds(es: seq<Entry>) {
    forall i, j :: 0 <= i < j < |es| ==> es[i].id != es[j].id
  }

  function Entries(records: map<Id, Record>, order: seq<Id>): (r: seq<Entry>)
    requires forall i :: 0 <= i < |order| ==> order[i] in records
    ensures |r| == |order|
    ensures forall i :: 0 <= i < |r| ==> r[i] == MakeEntry(order[i], records[order[i]])
  {
    if order == [] then []
    else [MakeEntry(order[0], records[order[0]])] + Entries(records, order[1..])
  }

  /** `iter(query)`: the stored records in the shelf's order, each read
      as an entry under its own id. */
  function Iterate(s: Store): (r: seq<Entry>)
    requires Valid(s)
    ensures |r| == |s.order|
    ensures forall i :: 0 <= i < |r| ==> r[i] == MakeEntry(s.order[i], s.records[s.order[i]])
  {
    Entries(s.records, s.order)
  }

  /** The ids an entry sequence carries. */
  function Ids(es: seq<Entry>): set<Id>
  {
    if es == [] then {} else Ids(es[..|es| - 1]) + {es[|es| - 1].id}
  }

  lemma {:induction false} IdsMembers(es: seq<Entry>)
    ensures forall i :: 0 <= i < |es| ==> es[i].id in Ids(es)
    ensures forall id :: id in Ids(es) ==> exists i :: 0 <= i < |es| && es[i].id == id
  {
    if es != [] {
      var last := |es| - 1;
      IdsMembers(es[..last]);
      assert forall i :: 0 <= i < last ==> es[..last][i] == es[i];
    }
  }

  lemma IterateDistinct(s: Store)
    requires Valid(s)
    ensures DistinctIds(Iterate(s))
  {
    var r := Iterate(s);
    forall i, j | 0 <= i < j < |r| ensures r[i].id != r[j].id {
      assert r[i].id == s.order[i] && r[j].id == s.order[j];
    }
  }

  lemma IterateIdsAreKeys(s: Store)
    requires Valid(s)
    ensures Ids(Iterate(s)) == s.records.Keys
  {
    var r := Iterate(s);
    IdsMembers(r);
    forall id | id in s.records ensures id in Ids(r) {
      var i :| 0 <= i < |s.order| && s.order[i] == id;
      assert r[i].id == id;
    }
    forall id | id in Ids(r) ensures id in s.records {
      var i :| 0 <= i < |r| && r[i].id == id;
      assert r[i].id == s.order[i];
    }
  }

  /** An iteration visits every stored id, and each exactly once. */
  lemma IterateVisitsEachIdOnce(s: Store)
    requires Valid(s)
    ensures DistinctIds(Iterate(s))
    ensures Ids(Iterate(s)) == s.records.Keys
    ensures |Iterate(s)| == |s.records|
  {
    OrderLength(s);
    IterateDistinct(s);
    IterateIdsAreKeys(s);
  }

  // ---------------------------------------------------------------------
  // reads

  /** `query[id]` / `query.get(id)`: the stored dict with `'_id'` added,
      or a `KeyError` for an id the shelf does not hold. */
  function Get(s: Store, id: Id): (r: Result<Entry>)
    ensures r.Ok? <==> id in s.records
    ensures r.Err? ==> r.error == KeyError
    ensures r.Ok? ==> r.value.id == id && r.value.data == Tag(s.records[id], id)
  {
    if id in s.records then Ok(MakeEntry(id, s.records[id])) else Err(KeyError)
  }

  /** Every entry an iteration yields is what `get` answers for its id. */
  lemma IteratedEntriesAreGettable(s: Store, i: nat)
    requires Valid(s) && i < |Iterate(s)|
    ensures Get(s, Iterate(s)[i].id) == Ok(Iterate(s)[i])
  {
  }

  /** `query.first(p)` answers an entry of the shelf, the same one `get`
      answers for its id. */
  lemma FirstIsStored(s: Store, p: Entry -> bool)
    requires Valid(s)
    ensures var r := Query.First(Iterate(s), p);
      r.Some? ==> p(r.value) && Get(s, r.value.id) == Ok(r.value)
  {
    var es := Iterate(s);
    var r := Query.First(es, p);
    if r.Some? {
      var i :| 0 <= i < |es| && es[i] == r.value;
    }
  }

  /** Every entry an iteration yields is one `get` answers. */
  lemma IteratedEntryIsStored(s: Store, e: Entry)
    requires Valid(s) && e in Iterate(s)
    ensures Get(s, e.id) == Ok(e)
  {
    var i :| 0 <= i < |Iterate(s)| && Iterate(s)[i] == e;
  }

  /** `filter` over a shelf passes on stored entries, unchanged. */
  lemma FilteredEntriesAreStored(s: Store, p: Entry -> bool)
    requires Valid(s)
    ensures forall e :: e in Query.Filter(Iterate(s), p) ==> p(e) && Get(s, e.id) == Ok(e)
  {
    var r := Query.Filter(Iterate(s), p);
    forall e | e in r ensures p(e) && Get(s, e.id) == Ok(e) {
      var i :| 0 <= i < |r| && r[i] == e;
      IteratedEntryIsStored(s, e);
    }
  }

  /** `sort` over a shelf passes on stored entries, unchanged. */
  lemma SortedEntriesAreStored(s: Store, key: Entry -> int, reverse: bool)
    requires Valid(s)
    ensures forall e :: e in Query.Sort(Iterate(s), key, reverse) ==> Get(s, e.id) == Ok(e)
  {
    var r := Query.Sort(Iterate(s), key, reverse);
    forall e | e in r ensures Get(s, e.id) == Ok(e) {
      assert e in multiset(r);
      IteratedEntryIsStored(s, e);
    }
  }

  /** `slice` over a shelf passes on stored entries, unchanged. */
  lemma SlicedEntriesAreStored(s: Store, start: Option<int>, stop: Option<int>, step: Option<int>)
    requires Valid(s)
    requires Query.Slice(Iterate(s), start, stop, step).Ok?
    ensures forall e :: e in Query.Slice(Iterate(s), start, stop, step).value ==> Get(s, e.id) == Ok(e)
  {
    var r := Query.Slice(Iterate(s), start, stop, step).value;
    Query.SliceTakesElements(Iterate(s), start, stop, step);
    forall e | e in r ensures Get(s, e.id) == Ok(e) {
      IteratedEntryIsStored(s, e);
    }
  }

  /** `reduce(lambda x, _: x + 1, 0)` counts the stored entries: an
      iteration visits each id exactly once. */
  lemma ReduceCountsEntries(s: Store, step: (int, Entry) -> int)
    requires Valid(s)
    requires forall acc, e :: step(acc, e) == acc + 1
    ensures Query.Reduce(Iterate(s), step, 0) == |s.records|
  {
    OrderLength(s);
    Query.ReduceCounts(Iterate(s), step, 0);
  }

  // ---------------------------------------------------------------------
  // writes

  /** `query.insert(entry)`: a dict (of any dict class) is stored under the
      fresh id, which is returned; every other entry is untouched. Anything
      else raises and the shelf is unchanged. `newId` stands for
      `str(uuid.uuid1())`, which never names a stored entry. */
  function Insert(s: Store, v: Value, newId: Id): (r: Result<(Store, Id)>)
    requires Valid(s)
    requires newId !in s.records
    ensures r.Err? <==> !IsDict(v)
    ensures r.Err? ==> r.error == NotADict
    ensures r.Ok? ==>
      && r.value.1 == newId
      && Valid(r.value.0)
      && r.value.0.records.Keys == s.records.Keys + {newId}
      && r.value.0.records[newId] == v.fields
      && (forall k :: k in s.records ==> r.value.0.records[k] == s.records[k])
  {
    if IsDict(v) then Ok((Put(s, newId, v.fields), newId)) else Err(NotADict)
  }

  /** What was inserted comes back from `get`, decorated with its id, and
      the shelf holds one entry more. */
  lemma InsertThenGet(s: Store, v: Value, newId: Id)
    requires Valid(s) && newId !in s.records && IsDict(v)
    ensures var (s', id) := Insert(s, v, newId).value;
      && Get(s', id) == Ok(MakeEntry(newId, v.fields))
      && |s'.records| == |s.records| + 1
  {
    var s' := Insert(s, v, newId).value.0;
    assert s'.records.Keys == s.records.Keys + {newId};
  }

  /** `entry.update(patch)`: the entry becomes its old contents merged with
      the patch (see `Values.MergeOverrides`) and is written back whole, with
      its `'_id'`, under its own id; no other id changes. An entry whose id
      was deleted meanwhile is written back, which re-creates it. */
  function EntryUpdate(s: Store, e: Entry, patch: Record): (r: (Store, Entry))
    requires Valid(s)
    ensures r.1 == Entry(e.id, Merge(e.data, patch))
    ensures Valid(r.0)
    ensures r.0.records == s.records[e.id := r.1.data]
    ensures s.order <= r.0.order
  {
    var data := Merge(e.data, patch);
    (Put(s, e.id, data), Entry(e.id, data))
  }

  /** Updating an entry read from the shelf with a patch that does not name
      `'_id'` leaves the stored `'_id'` equal to the id. */
  lemma UpdateKeepsIdTag(s: Store, id: Id, patch: Record)
    requires Valid(s) && id in s.records && IdKey !in patch
    ensures var r := EntryUpdate(s, MakeEntry(id, s.records[id]), patch).0;
      Get(r, id).Ok? && r.records[id][IdKey] == Str(id)
  {
  }

  /** `entry.replace(d)`: only an exact `dict` is accepted. The entry is
      cleared and refilled with `d` plus `'_id'`, then written back, so no
      old key survives and no other id changes. */
  function EntryReplace(s: Store, e: Entry, d: Value): (r: Result<(Store, Entry)>)
    requires Valid(s)
    ensures r.Err? <==> !IsExactDict(d)
    ensures r.Err? ==> r.error == NotADict
    ensures r.Ok? ==>
      && r.value.1 == Entry(e.id, Tag(d.fields, e.id))
      && Valid(r.value.0)
      && r.value.0.records == s.records[e.id := r.value.1.data]
  {
    if !IsExactDict(d) then Err(NotADict)
    else
      var cleared := Entry(e.id, map[]);
      var refill := Tag(d.fields, e.id);
      assert Merge(cleared.data, refill) == refill;
      Ok(EntryUpdate(s, cleared, refill))
  }

  /** After a replace no old key survives: the stored record holds exactly
      the keys of `d` and `'_id'`. */
  lemma ReplaceDropsOldKeys(s: Store, e: Entry, d: Value, k: Key)
    requires Valid(s) && IsExactDict(d)
    requires k in e.data && k !in d.fields && k != IdKey
    ensures var (s', _) := EntryReplace(s, e, d).value;
      k !in s'.records[e.id] && s'.records[e.id][IdKey] == Str(e.id)
  {
  }

  /** `entry.delete()`: removes its own id and nothing else; an id no
      longer on the shelf is a `KeyError`. */
  function EntryDelete(s: Store, e: Entry): (r: Result<Store>)
    requires Valid(s)
    ensures r.Err? <==> e.id !in s.records
    ensures r.Err? ==> r.error == KeyError
    ensures r.Ok? ==> Valid(r.value) && r.value.records == s.records - {e.id}
  {
    if e.id in s.records then Ok(Remove(s, e.id)) else Err(KeyError)
  }

  // ---------------------------------------------------------------------
  // bulk writes over the entries a query yields

  lemma IdsSnoc(es: seq<Entry>, n: nat)
    requires n < |es|
    ensures Ids(es[..n + 1]) == Ids(es[..n]) + {es[n].id}
  {
    assert es[..n + 1][..n] == es[..n];
  }

  /** With distinct ids, the next entry's id is not among the earlier ones. */
  lemma NextIdUnseen(es: seq<Entry>, n: nat)
    requires n < |es| && DistinctIds(es)
    ensures es[n].id !in Ids(es[..n])
  {
    IdsMembers(es[..n]);
  }

  /** The ids of a prefix are among the ids of the whole. */
  lemma IdsPrefix(es: seq<Entry>, n: nat)
    requires n <= |es|
    ensures Ids(es[..n]) <= Ids(es)
  {
    IdsMembers(es);
    IdsMembers(es[..n]);
    forall id | id in Ids(es[..n]) ensures id in Ids(es) {
      var i :| 0 <= i < n && es[..n][i].id == id;
      assert es[i].id == id;
    }
  }

  /** An entry missing from the shelf, whose id no earlier entry carried,
      was missing from the start. */
  lemma DeleteMiss(keys: set<Id>, es: seq<Entry>, n: nat)
    requires n < |es| && DistinctIds(es)
    requires es[n].id !in keys - Ids(es[..n])
    ensures es[n].id !in keys
    ensures !(Ids(es) <= keys)
    ensures forall id :: id in keys && id !in Ids(es) ==> id !in Ids(es[..n])
  {
    NextIdUnseen(es, n);
    IdsMembers(es);
    IdsPrefix(es, n);
  }

  /** `m` is `base` after the writes for the first `n` entries of `es`. */
  ghost predicate WrittenUpTo(base: map<Id, Record>, m: map<Id, Record>, es: seq<Entry>, n: nat, write: Entry -> Record)
    requires n <= |es|
  {
    && m.Keys == base.Keys + Ids(es[..n])
    && (forall i :: 0 <= i < n ==> es[i].id in m && m[es[i].id] == write(es[i]))
    && (forall id :: id in base && id !in Ids(es[..n]) ==> m[id] == base[id])
  }

  lemma WriteStep(base: map<Id, Record>, m: map<Id, Record>, es: seq<Entry>, n: nat, write: Entry -> Record)
    requires n < |es| && DistinctIds(es)
    requires WrittenUpTo(base, m, es, n, write)
    ensures WrittenUpTo(base, m[es[n].id := write(es[n])], es, n + 1, write)
  {
    IdsSnoc(es, n);
    var m' := m[es[n].id := write(es[n])];
    forall i | 0 <= i < n + 1
      ensures es[i].id in m' && m'[es[i].id] == write(es[i])
    {
      if i < n {
        assert es[i].id != es[n].id;
      }
    }
  }

  /** The loop shared by the bulk writes: for each yielded entry in turn,
      `write(entry)` is stored under the entry's id. The entries carry
      distinct ids, so each one's write survives; ids no entry carries keep
      their records. */
  method WriteEach(s: Store, es: seq<Entry>, write: Entry -> Record) returns (r: Store)
    requires Valid(s)
    requires DistinctIds(es)
    ensures Valid(r)
    ensures r.records.Keys == s.records.Keys + Ids(es)
    ensures forall i :: 0 <= i < |es| ==> es[i].id in r.records && r.records[es[i].id] == write(es[i])
    ensures forall id :: id in s.records && id !in Ids(es) ==> r.records[id] == s.records[id]
    ensures s.order <= r.order
  {
    r := s;
    var n := 0;
    while n < |es|
      invariant 0 <= n <= |es|
      invariant Valid(r)
      invariant WrittenUpTo(s.records, r.records, es, n, write)
      invariant s.order <= r.order
    {
      WriteStep(s.records, r.records, es, n, write);
      r := Put(r, es[n].id, write(es[n]));
      n := n + 1;
    }
    assert es[..n] == es;
  }

  /** `query.update(patch)`: every yielded entry is merged with the patch
      and written back (`Entry.update` on each); ids no entry carries keep
      their records. */
  method UpdateEach(s: Store, es: seq<Entry>, patch: Record) returns (r: Store)
    requires Valid(s)
    requires DistinctIds(es)
    ensures Valid(r)
    ensures r.records.Keys == s.records.Keys + Ids(es)
    ensures forall i :: 0 <= i < |es| ==> es[i].id in r.records && r.records[es[i].id] == Merge(es[i].data, patch)
    ensures forall id :: id in s.records && id !in Ids(es) ==> r.records[id] == s.records[id]
    ensures s.order <= r.order
  {
    r := WriteEach(s, es, (e: Entry) => EntryUpdate(s, e, patch).1.data);
  }

  /** `shelf.update(patch)` on the whole shelf: the ids and their order are
      unchanged, and every record becomes itself with `'_id'`, merged with
      the patch. */
  method UpdateAll(s: Store, patch: Record) returns (r: Store)
    requires Valid(s)
    ensures Valid(r)
    ensures r.records.Keys == s.records.Keys
    ensures r.order == s.order
    ensures forall id :: id in s.records ==> r.records[id] == Merge(Tag(s.records[id], id), patch)
  {
    IterateDistinct(s);
    r := UpdateEach(s, Iterate(s), patch);
    UpdatedEveryEntry(s, r, patch);
  }

  /** Updating every iterated entry rewrites each stored id in place. */
  lemma UpdatedEveryEntry(s: Store, r: Store, patch: Record)
    requires Valid(s) && Valid(r)
    requires r.records.Keys == s.records.Keys + Ids(Iterate(s))
    requires forall i :: 0 <= i < |Iterate(s)| ==>
      Iterate(s)[i].id in r.records && r.records[Iterate(s)[i].id] == Merge(Iterate(s)[i].data, patch)
    requires s.order <= r.order
    ensures r.records.Keys == s.records.Keys
    ensures r.order == s.order
    ensures forall id :: id in s.records ==> r.records[id] == Merge(Tag(s.records[id], id), patch)
  {
    IterateIdsAreKeys(s);
    assert r.records.Keys == s.records.Keys;
    SameKeysSameOrder(s, r);
    IteratedUpdates(s, r, patch);
  }

  /** A store that only rewrote existing keys iterates in the same order. */
  lemma SameKeysSameOrder(s: Store, r: Store)
    requires Valid(s) && Valid(r)
    requires r.records.Keys == s.records.Keys && s.order <= r.order
    ensures r.order == s.order
  {
    OrderLength(s);
    OrderLength(r);
  }

  /** An update applied to every iterated entry reaches every stored id. */
  lemma IteratedUpdates(s: Store, r: Store, patch: Record)
    requires Valid(s)
    requires forall i :: 0 <= i < |Iterate(s)| ==>
      Iterate(s)[i].id in r.records && r.records[Iterate(s)[i].id] == Merge(Iterate(s)[i].data, patch)
    ensures forall id :: id in s.records ==> id in r.records && r.records[id] == Merge(Tag(s.records[id], id), patch)
  {
    var es := Iterate(s);
    forall id | id in s.records
      ensures id in r.records && r.records[id] == Merge(Tag(s.records[id], id), patch)
    {
      var i :| 0 <= i < |s.order| && s.order[i] == id;
      assert es[i] == MakeEntry(id, s.records[id]);
    }
  }

  /** `query.replace(d)`: every yielded entry is replaced by `d` tagged
      with that entry's id. A `d` that is not exactly a `dict` raises at the
      first entry, before anything is written; with no entries nothing
      raises. */
  method ReplaceEach(s: Store, es: seq<Entry>, d: Value) returns (r: Result<Store>)
    requires Valid(s)
    requires DistinctIds(es)
    ensures r.Err? <==> es != [] && !IsExactDict(d)
    ensures r.Err? ==> r.error == NotADict
    ensures r.Ok? && es == [] ==> r.value == s
    ensures r.Ok? ==>
      && Valid(r.value)
      && r.value.records.Keys == s.records.Keys + Ids(es)
      && (forall i :: 0 <= i < |es| ==> es[i].id in r.value.records && r.value.records[es[i].id] == Tag(d.fields, es[i].id))
      && (forall id :: id in s.records && id !in Ids(es) ==> r.value.records[id] == s.records[id])
  {
    if es == [] {
      return Ok(s);
    }
    if !IsExactDict(d) {
      return Err(NotADict);
    }
    var t := WriteEach(s, es, (e: Entry) => EntryReplace(s, e, d).value.1.data);
    r := Ok(t);
  }

  /** `query.delete()`: deletes the yielded entries one by one. If one of
      them is no longer on the shelf, its `KeyError` stops the deletion with
      the earlier ones already gone. Nothing else is deleted and no record
      changes. */
  method DeleteEach(s: Store, es: seq<Entry>) returns (r: Store, err: Option<Error>)
    requires Valid(s)
    requires DistinctIds(es)
    ensures Valid(r)
    ensures r.records.Keys <= s.records.Keys
    ensures forall id :: id in r.records ==> r.records[id] == s.records[id]
    ensures forall id :: id in s.records && id !in Ids(es) ==> id in r.records
    ensures err.None? <==> Ids(es) <= s.records.Keys
    ensures err.Some? ==> err.value == KeyError
    ensures err.None? ==> r.records.Keys == s.records.Keys - Ids(es)
    ensures err.Some? ==>
      exists n :: 0 <= n < |es| && es[n].id !in s.records
        && Ids(es[..n]) <= s.records.Keys && r.records.Keys == s.records.Keys - Ids(es[..n])
  {
    r := s;
    err := None;
    var n := 0;
    while n < |es|
      invariant 0 <= n <= |es|
      invariant Valid(r)
      invariant Ids(es[..n]) <= s.records.Keys
      invariant r.records.Keys == s.records.Keys - Ids(es[..n])
      invariant forall id :: id in r.records ==> r.records[id] == s.records[id]
    {
      IdsSnoc(es, n);
      match EntryDelete(r, es[n]) {
        case Err(e) =>
          DeleteMiss(s.records.Keys, es, n);
          return r, Some(e);
        case Ok(r') =>
          r := r';
      }
      n := n + 1;
    }
    assert es[..n] == es;
  }

  /** `shelf.delete()` on the whole shelf: afterwards iteration yields
      nothing. */
  method DeleteAll(s: Store) returns (r: Store)
    requires Valid(s)
    ensures Valid(r)
    ensures r.records == map[]
    ensures Iterate(r) == []
  {
    var es := Iterate(s);
    IterateVisitsEachIdOnce(s);
    var err;
    r, err := DeleteEach(s, es);
    assert r.records.Keys == {};
    OrderLength(r);
  }
}

=== FILE: sidebar.dfy ===
/** Visibility of `Sidebar` in docs/_component/sidebar/sidebar.js.

    The sidebar has a content panel and an overlay; each is shown while it
    carries the `show` class. A media query (wider than `showAt`) decides
    the resting state, and clicking the overlay hides both.
 */
module Sidebar {
  import opened Wrappers

  /** Which of the two parts carry `show`. */
  datatype View = View(content: bool, overlay: bool)

  /** `show({overlay})`: the content is shown; the overlay is shown as well
      when `overlay` is true, which it is when left out. An overlay already
      shown stays shown either way. */
  function Show(v: View, overlay: Option<bool>): (r: View)
    ensures r.content
    ensures r.overlay <==> v.overlay || overlay != Some(false)
  {
    var wanted := if overlay.None? then true else overlay.value;
    View(true, v.overlay || wanted)
  }

  /** `hide()`: both parts are hidden. */
  function Hide(v: View): (r: View)
    ensures !r.content && !r.overlay
  {
    View(false, false)
  }

  /** `mediaChange()`: a wide screen shows the content without asking for
      the overlay; a narrow one hides everything. */
  function MediaChange(v: View, matches: bool): (r: View)
    ensures matches ==> r.content && r.overlay == v.overlay
    ensures !matches ==> !r.content && !r.overlay
  {
    if matches then Show(v, Some(false)) else Hide(v)
  }

  /** A click on the overlay. */
  function OverlayClick(v: View): (r: View)
    ensures !r.content && !r.overlay
  {
    Hide(v)
  }

  /** The constructor renders the parts found in the markup, with whatever
      classes they carry, and applies the media query once. */
  function Construct(markup: View, matches: bool): (r: View)
    ensures r.content <==> matches
    ensures r.overlay <==> matches && markup.overlay
  {
    MediaChange(markup, matches)
  }

  /** The overlay never shows without the content. */
  predicate Consistent(v: View) {
    v.overlay ==> v.content
  }

  /** Every transition keeps the overlay from showing alone, and the
      constructor establishes it whatever the markup says. */
  lemma TransitionsKeepConsistent(v: View, overlay: Option<bool>, matches: bool)
    ensures Consistent(Show(v, overlay))
    ensures Consistent(Hide(v))
    ensures Consistent(v) ==> Consistent(MediaChange(v, matches))
    ensures Consistent(Construct(v, matches))
  {
  }

  /** What can happen to a sidebar: a call of `show`, a call of `hide`, a
      media-query change and a click on the overlay. */
  datatype Event = ShowCall(overlay: Option<bool>) | HideCall | Media(matches: bool) | OverlayClicked

  function Step(v: View, e: Event): View {
    match e
    case ShowCall(o) => Show(v, o)
    case HideCall => Hide(v)
    case Media(m) => MediaChange(v, m)
    case OverlayClicked => OverlayClick(v)
  }

  /** The view after the events, in order. */
  function Replay(v: View, evs: seq<Event>): View {
    if evs == [] then v else Step(Replay(v, evs[..|evs| - 1]), evs[|evs| - 1])
  }

  /** The events that hide the overlay. */
  predicate Resets(e: Event) {
    e.HideCall? || e.OverlayClicked? || (e.Media? && !e.matches)
  }

  /** The events that show the overlay. */
  predicate RaisesOverlay(e: Event) {
    e.ShowCall? && e.overlay != Some(false)
  }

  /** None of the events from position `i` on hides the overlay. */
  predicate NoResetFrom(evs: seq<Event>, i: nat) {
    forall j :: i <= j < |evs| ==> !Resets(evs[j])
  }

  lemma NoResetSnoc(evs: seq<Event>, i: nat)
    requires i < |evs|
    ensures NoResetFrom(evs, i) <==> NoResetFrom(evs[..|evs| - 1], i) && !Resets(evs[|evs| - 1])
  {
  }

  /** The overlay shows after a run of events exactly when some `show`
      asking for it came after the last `hide`, overlay click and
      narrowing, or it showed from the start and none of those happened. */
  lemma {:induction false} ReplayOverlay(v: View, evs: seq<Event>)
    ensures Replay(v, evs).overlay <==>
      (exists i :: 0 <= i < |evs| && RaisesOverlay(evs[i]) && NoResetFrom(evs, i + 1))
      || (v.overlay && NoResetFrom(evs, 0))
  {
    if evs != [] {
      var n := |evs| - 1;
      var init := evs[..n];
      var e := evs[n];
      ReplayOverlay(v, init);
      forall i | 0 <= i <= n
        ensures NoResetFrom(evs, i) <==> NoResetFrom(init, i) && !Resets(e)
      {
        NoResetSnoc(evs, i);
      }
      if Resets(e) {
        assert !NoResetFrom(evs, 0);
        forall i | 0 <= i < |evs| ensures !(RaisesOverlay(evs[i]) && NoResetFrom(evs, i + 1)) {
          if i < n {
            assert !NoResetFrom(evs, i + 1);
          }
        }
      } else if RaisesOverlay(e) {
        assert RaisesOverlay(evs[n]) && NoResetFrom(evs, n + 1);
      } else {
        forall i | 0 <= i < n
          ensures RaisesOverlay(evs[i]) && NoResetFrom(evs, i + 1) <==>
            RaisesOverlay(init[i]) && NoResetFrom(init, i + 1)
        {
          assert evs[i] == init[i];
        }
      }
    }
  }

  /** The content shows after a run of events exactly when the last one
      was a `show` or a widening; every event decides it. */
  lemma ReplayContent(v: View, evs: seq<Event>)
    ensures evs != [] ==>
      (Replay(v, evs).content <==> evs[|evs| - 1].ShowCall? || evs[|evs| - 1] == Media(true))
    ensures evs == [] ==> Replay(v, evs) == v
  {
  }

  /** Widening the screen while the overlay is open leaves it open: the
      media query shows the content but does not take the overlay away. */
  lemma WideningKeepsOverlay(v: View)
    requires v.overlay
    ensures MediaChange(v, true) == View(true, true)
  {
  }

  /** From any view, a narrow screen followed by a wide one shows the
      content alone. */
  lemma NarrowThenWide(v: View)
    ensures MediaChange(MediaChange(v, false), true) == View(true, false)
  {
  }
}

=== FILE: store.dfy ===
/** The contents of one shelf file, held in memory.

    A `shelve` file maps string keys to pickled dicts. Iterating it visits
    the keys of the underlying dbm in an order the dbm chooses, which need
    not be insertion order; the model keeps an order as an explicit
    sequence of the stored keys. Overwriting a key keeps its place, and a
    new key is placed last. The order clauses here and in `Shelf` describe
    this store, not the order a real dbm file iterates in.
 */
module Store {
  import opened Values
  import Query

  datatype Store = Store(records: map<Id, Record>, order: seq<Id>)

  /** The order lists every stored key exactly once. */
  ghost predicate Valid(s: Store) {
    && Query.Distinct(s.order)
    && (forall i :: 0 <= i < |s.order| ==> s.order[i] in s.records)
    && (forall k :: k in s.records ==> k in s.order)
  }

  function Empty(): (r: Store)
    ensures Valid(r) && r.records == map[] && r.order == []
  {
    Store(map[], [])
  }

  /** `shelf[k] = rec`: `k` now holds `rec`, every other key keeps its
      record, and the keys already present keep their places. */
  function Put(s: Store, k: Id, rec: Record): (r: Store)
    requires Valid(s)
    ensures Valid(r)
    ensures r.records == s.records[k := rec]
    ensures s.order <= r.order
  {
    if k in s.records then Store(s.records[k := rec], s.order)
    else Store(s.records[k := rec], s.order + [k])
  }

  /** `del shelf[k]` for a present key: only `k` disappears, and the
      remaining keys keep their relative order. */
  function Remove(s: Store, k: Id): (r: Store)
    requires Valid(s) && k in s.records
    ensures Valid(r)
    ensures r.records == s.records - {k}
    ensures r.order == Query.Filter(s.order, (j: Id) => j != k)
  {
    var order := Query.Filter(s.order, (j: Id) => j != k);
    Query.FilterDistinct(s.order, (j: Id) => j != k);
    Store(s.records - {k}, order)
  }

  lemma {:induction false} DistinctCardinality(xs: seq<Id>)
    requires Query.Distinct(xs)
    ensures |set x | x in xs| == |xs|
  {
    if xs != [] {
      var rest := xs[..|xs| - 1];
      DistinctCardinality(rest);
      assert (set x | x in xs) == (set x | x in rest) + {xs[|xs| - 1]};
      assert xs[|xs| - 1] !in rest;
    }
  }

  /** The iteration order is exactly as long as the shelf. */
  lemma OrderLength(s: Store)
    requires Valid(s)
    ensures |s.order| == |s.records.Keys| == |s.records|
  {
    DistinctCardinality(s.order);
    assert (set x | x in s.order) == s.records.Keys;
  }
}

=== FILE: styles.dfy ===
/** Style descriptors of the widget toolkit in
    docs/_component/sidebar/sidebar.js, as `ButtonStyle` shows them, and the
    `lift` shadow helper they use.

    A descriptor class holds a `default` option object. `css(style)`
    spreads the supplied options over the defaults and renders the result
    through `style(...)`, which asks one generator per option; a generator
    renders nothing when its option is `undefined` or `null`. `style(...)`
    on its own does not look at the defaults. The declarations are kept as
    data; the fixed rules around them and the colour arithmetic of
    `bgColorInt` are not part of the model.
 */
module Styles {
  import opened Wrappers

  /** An option value as JavaScript hands it over. */
  datatype CssValue = Undefined | Null | Text(s: string)

  /** An options object: a key that is absent reads as `undefined`. */
  type Config = map<string, CssValue>

  function Lookup(c: Config, k: string): CssValue {
    if k in c then c[k] else Undefined
  }

  /** `v == undefined`, which loose equality also answers for `null`. */
  predicate LooselyUndefined(v: CssValue) {
    v.Undefined? || v.Null?
  }

  /** `{...defaults, ...supplied}`: every key either side has, the supplied
      value winning. A key supplied as `undefined` still wins. */
  function Overlay(defaults: Config, supplied: Config): (r: Config)
    ensures r.Keys == defaults.Keys + supplied.Keys
    ensures forall k :: k in supplied ==> r[k] == supplied[k]
    ensures forall k :: k in defaults && k !in supplied ==> r[k] == defaults[k]
  {
    map k | k in defaults.Keys + supplied.Keys :: if k in supplied then supplied[k] else defaults[k]
  }

  lemma OverlayWins(defaults: Config, supplied: Config)
    ensures Overlay(defaults, supplied).Keys == defaults.Keys + supplied.Keys
    ensures forall k :: k in supplied ==> Lookup(Overlay(defaults, supplied), k) == supplied[k]
    ensures forall k :: k !in supplied ==> Lookup(Overlay(defaults, supplied), k) == Lookup(defaults, k)
  {
  }

  /** Overlaying twice on the same defaults changes nothing more. */
  lemma OverlayIdempotent(defaults: Config, supplied: Config)
    ensures Overlay(defaults, Overlay(defaults, supplied)) == Overlay(defaults, supplied)
  {
  }

  const ColorOption: string := "color"
  const RadiusOption: string := "borderRadius"

  /** `ButtonStyle.default`. */
  const ButtonDefaults: Config := map[ColorOption := Text("blue"), RadiusOption := Text("4px")]

  /** One rendered option: the background rules `bgColorInt` derives from a
      colour, or a `border-radius` declaration. */
  datatype Decl = Background(color: string) | BorderRadius(radius: string)

  /** `_color(style)`. */
  function ColorDecls(c: Config): (r: seq<Decl>)
    ensures |r| <= 1
  {
    match Lookup(c, ColorOption)
    case Text(s) => [Background(s)]
    case _ => []
  }

  /** `_borderRadius(style)`. */
  function RadiusDecls(c: Config): (r: seq<Decl>)
    ensures |r| <= 1
  {
    match Lookup(c, RadiusOption)
    case Text(s) => [BorderRadius(s)]
    case _ => []
  }

  /** `ButtonStyle.style(style)`: the generators in order, without the
      defaults. */
  function Style(c: Config): (r: seq<Decl>)
    ensures |r| == (if LooselyUndefined(Lookup(c, ColorOption)) then 0 else 1)
                 + (if LooselyUndefined(Lookup(c, RadiusOption)) then 0 else 1)
  {
    ColorDecls(c) + RadiusDecls(c)
  }

  /** A declaration appears exactly for each option that is defined, and
      carries that option's value. */
  lemma StyleDeclaresDefinedOptions(c: Config)
    ensures (exists i :: 0 <= i < |Style(c)| && Style(c)[i].Background?) <==> !LooselyUndefined(Lookup(c, ColorOption))
    ensures (exists i :: 0 <= i < |Style(c)| && Style(c)[i].BorderRadius?) <==> !LooselyUndefined(Lookup(c, RadiusOption))
    ensures forall i :: 0 <= i < |Style(c)| && Style(c)[i].Background? ==> Lookup(c, ColorOption) == Text(Style(c)[i].color)
    ensures forall i :: 0 <= i < |Style(c)| && Style(c)[i].BorderRadius? ==> Lookup(c, RadiusOption) == Text(Style(c)[i].radius)
  {
    if !LooselyUndefined(Lookup(c, ColorOption)) {
      assert Style(c)[0].Background?;
    }
    if !LooselyUndefined(Lookup(c, RadiusOption)) {
      assert Style(c)[|Style(c)| - 1].BorderRadius?;
    }
  }

  /** `ButtonStyle.css(style)`, its option-driven part: the supplied options
      overlaid on the defaults, rendered. */
  function Css(c: Config): (r: seq<Decl>)
    ensures |r| <= 2
    ensures ColorOption !in c ==> |r| >= 1 && r[0] == Background("blue")
    ensures RadiusOption !in c ==> |r| >= 1 && r[|r| - 1] == BorderRadius("4px")
    ensures ColorOption in c && RadiusOption in c ==> r == Style(c)
  {
    Style(Overlay(ButtonDefaults, c))
  }

  /** With nothing supplied, `css()` renders the defaults. */
  lemma CssOfNothingIsDefaults()
    ensures Css(map[]) == [Background("blue"), BorderRadius("4px")]
    ensures Css(map[]) == Style(ButtonDefaults)
  {
    assert Overlay(ButtonDefaults, map[]) == ButtonDefaults;
  }

  /** A supplied option replaces its default; an option not supplied keeps
      the default; an option supplied as `undefined` or `null` renders
      nothing, default or not. */
  lemma CssSuppliedWins(c: Config)
    ensures ColorDecls(Overlay(ButtonDefaults, c)) ==
      if ColorOption !in c then [Background("blue")] else ColorDecls(c)
    ensures RadiusDecls(Overlay(ButtonDefaults, c)) ==
      if RadiusOption !in c then [BorderRadius("4px")] else RadiusDecls(c)
  {
    OverlayWins(ButtonDefaults, c);
  }

  /** Passing the already overlaid options renders the same thing. */
  lemma CssIdempotent(c: Config)
    ensures Css(Overlay(ButtonDefaults, c)) == Css(c)
  {
    OverlayIdempotent(ButtonDefaults, c);
  }

  // ---------------------------------------------------------------------
  // lift

  /** One `box-shadow` of the table: vertical offset and blur, in px. */
  datatype Shadow = Shadow(offset: nat, blur: nat)

  const ShadowTable: seq<Shadow> :=
    [Shadow(0, 0), Shadow(1, 3), Shadow(2, 5), Shadow(4, 9), Shadow(8, 17), Shadow(16, 33)]

  const DefaultLevel: int := 3
  const DefaultShadowColor: string := "rgb(0, 0, 0, 50%)"

  /** The table row `lift({level})` uses: `level` defaults to 3, and one
      outside 0..5 falls back to 0. */
  function LiftLevel(level: Option<int>): (r: nat)
    ensures r < |ShadowTable|
  {
    var l := if level.None? then DefaultLevel else level.value;
    if l < 0 || l > 5 then 0 else l
  }

  /** The level actually used is the one asked for exactly when that is in
      0..5, and 0 otherwise; no level reaches past the table. */
  lemma LiftLevelClamps(level: int)
    ensures 0 <= level <= 5 ==> LiftLevel(Some(level)) == level
    ensures !(0 <= level <= 5) ==> LiftLevel(Some(level)) == 0
    ensures LiftLevel(None) == LiftLevel(Some(DefaultLevel))
  {
  }

  /** `n` in decimal. */
  function Decimal(n: nat): (r: string)
    ensures |r| >= 1
  {
    if n < 10 then ["0123456789"[n]] else Decimal(n / 10) + ["0123456789"[n % 10]]
  }

  function Px(n: nat): string {
    if n == 0 then "0" else Decimal(n) + "px"
  }

  /** The text of one shadow up to its colour. */
  function ShadowHead(sh: Shadow): string {
    "0 " + Px(sh.offset) + " " + Px(sh.blur) + " 0 "
  }

  function RenderShadow(sh: Shadow, color: string): string {
    ShadowHead(sh) + color
  }

  /** `lift({level, shadowColor})`. */
  function Lift(level: Option<int>, color: Option<string>): (r: string)
  {
    var c := if color.None? then DefaultShadowColor else color.value;
    "box-shadow: " + RenderShadow(ShadowTable[LiftLevel(level)], c) + ";"
  }

  /** Every level outside 0..5 renders the flat shadow of level 0, and
      leaving the level out renders the shadow of level 3. */
  lemma LiftOutOfRangeIsFlat(level: int, color: Option<string>)
    requires level < 0 || level > 5
    ensures Lift(Some(level), color) == Lift(Some(0), color)
    ensures Lift(None, color) == Lift(Some(DefaultLevel), color)
  {
  }

  /** The text of each level, for any shadow colour: the six rows of the
      table in order. */
  lemma LiftTable(c: string)
    ensures Lift(Some(0), Some(c)) == "box-shadow: 0 0 0 0 " + c + ";"
    ensures Lift(Some(1), Some(c)) == "box-shadow: 0 1px 3px 0 " + c + ";"
    ensures Lift(Some(2), Some(c)) == "box-shadow: 0 2px 5px 0 " + c + ";"
    ensures Lift(Some(3), Some(c)) == "box-shadow: 0 4px 9px 0 " + c + ";"
    ensures Lift(Some(4), Some(c)) == "box-shadow: 0 8px 17px 0 " + c + ";"
    ensures Lift(Some(5), Some(c)) == "box-shadow: 0 16px 33px 0 " + c + ";"
  {
    LiftRow0(c);
    LiftRow1(c);
    LiftRow2(c);
    LiftRow3(c);
    LiftRow4(c);
    LiftRow5(c);
  }

  /** A number below 100 and not below 10 is its two digits. */
  lemma DecimalTwoDigits(n: nat)
    requires 10 <= n < 100
    ensures Decimal(n) == ["0123456789"[n / 10], "0123456789"[n % 10]]
  {
  }

  /** Strings concatenate associatively. */
  lemma ConcatAssoc(a: string, b: string, c: string)
    ensures a + (b + c) == (a + b) + c
  {
  }

  // One lemma per row of the table: the head of the shadow, which holds no
  // colour, is rendered first and the colour attached after it.

  lemma LiftRow0(c: string)
    ensures Lift(Some(0), Some(c)) == "box-shadow: 0 0 0 0 " + c + ";"
  {
    assert ShadowTable[0] == Shadow(0, 0);
    assert Px(0) == "0";
    var h := ShadowHead(Shadow(0, 0));
    assert "box-shadow: " + h == "box-shadow: 0 0 0 0 ";
    ConcatAssoc("box-shadow: ", h, c);
  }

  lemma LiftRow1(c: string)
    ensures Lift(Some(1), Some(c)) == "box-shadow: 0 1px 3px 0 " + c + ";"
  {
    assert ShadowTable[1] == Shadow(1, 3);
    assert Px(1) == "1px" && Px(3) == "3px";
    var h := ShadowHead(Shadow(1, 3));
    assert "box-shadow: " + h == "box-shadow: 0 1px 3px 0 ";
    ConcatAssoc("box-shadow: ", h, c);
  }

  lemma LiftRow2(c: string)
    ensures Lift(Some(2), Some(c)) == "box-shadow: 0 2px 5px 0 " + c + ";"
  {
    assert ShadowTable[2] == Shadow(2, 5);
    assert Px(2) == "2px" && Px(5) == "5px";
    var h := ShadowHead(Shadow(2, 5));
    assert "box-shadow: " + h == "box-shadow: 0 2px 5px 0 ";
    ConcatAssoc("box-shadow: ", h, c);
  }

  lemma LiftRow3(c: string)
    ensures Lift(Some(3), Some(c)) == "box-shadow: 0 4px 9px 0 " + c + ";"
  {
    assert ShadowTable[3] == Shadow(4, 9);
    assert Px(4) == "4px" && Px(9) == "9px";
    var h := ShadowHead(Shadow(4, 9));
    assert "box-shadow: " + h == "box-shadow: 0 4px 9px 0 ";
    ConcatAssoc("box-shadow: ", h, c);
  }

  lemma LiftRow4(c: string)
    ensures Lift(Some(4), Some(c)) == "box-shadow: 0 8px 17px 0 " + c + ";"
  {
    DecimalTwoDigits(17);
    assert ShadowTable[4] == Shadow(8, 17);
    assert Px(8) == "8px" && Px(17) == "17px";
    var h := ShadowHead(Shadow(8, 17));
    assert "box-shadow: " + h == "box-shadow: 0 8px 17px 0 ";
    ConcatAssoc("box-shadow: ", h, c);
  }

  lemma LiftRow5(c: string)
    ensures Lift(Some(5), Some(c)) == "box-shadow: 0 16px 33px 0 " + c + ";"
  {
    DecimalTwoDigits(16);
    DecimalTwoDigits(33);
    assert ShadowTable[5] == Shadow(16, 33);
    assert Px(16) == "16px" && Px(33) == "33px";
    var h := ShadowHead(Shadow(16, 33));
    assert "box-shadow: " + h == "box-shadow: 0 16px 33px 0 ";
    ConcatAssoc("box-shadow: ", h, c);
  }

}

=== FILE: tab.dfy ===
/** `Tab` of docs/_component/sidebar/sidebar.js: a row of tab `div`s of
    which clicking one marks it `active`.

    Tabs are numbered by their position among the element's `div`s in
    document order. The state is the set of tabs carrying the `active`
    class and the tab the element remembers as active (`activedTab`),
    which is unset until setup finds an active tab or one is clicked.
 */
module Tab {
  import opened Wrappers

  datatype TabState = TabState(active: set<nat>, current: Option<nat>)

  /** `activateTab(t)`: the remembered tab loses `active` (nothing happens
      for an unset one; the error is swallowed), `t` gains it and becomes
      the remembered tab. No other tab changes. */
  function Activate(st: TabState, t: nat): (r: TabState)
    ensures t in r.active && r.current == Some(t)
    ensures st.current.Some? && st.current.value != t ==> st.current.value !in r.active
    ensures forall u :: u != t && st.current != Some(u) ==> (u in r.active <==> u in st.active)
  {
    var cleared := if st.current.Some? then st.active - {st.current.value} else st.active;
    TabState(cleared + {t}, Some(t))
  }

  /** At most the remembered tab is marked active, and it is. */
  predicate SingleActive(st: TabState) {
    match st.current
    case None => st.active == {}
    case Some(c) => st.active == {c}
  }

  /** Once only the remembered tab is active, exactly the clicked tab is
      afterwards. */
  lemma ActivateKeepsSingle(st: TabState, t: nat)
    requires SingleActive(st)
    ensures SingleActive(Activate(st, t))
    ensures Activate(st, t).active == {t}
  {
  }

  /** Clicking the same tab again changes nothing. */
  lemma ActivateIdempotent(st: TabState, t: nat)
    ensures Activate(Activate(st, t), t) == Activate(st, t)
  {
  }

  /** A tab marked active in the markup but not remembered stays active
      when another tab is clicked: two tabs show as active. */
  lemma StaleActiveSurvives(st: TabState, t: nat, u: nat)
    requires u in st.active && st.current != Some(u) && t != u
    ensures u in Activate(st, t).active && t in Activate(st, t).active
  {
  }

  /** One `div` found below the element: whether it is a child of the
      element itself, and whether the markup marks it `active`. */
  datatype Div = Div(direct: bool, active: bool)

  /** `setupTab()`: walks the `div`s in document order, stops at the first
      one that is not a direct child, and wires a click handler to each one
      before it. The remembered tab is the last wired one marked `active`.
      Answers how many were wired and the starting state. */
  method Setup(divs: seq<Div>) returns (wired: nat, st: TabState)
    ensures wired <= |divs|
    ensures forall i :: 0 <= i < wired ==> divs[i].direct
    ensures wired < |divs| ==> !divs[wired].direct
    ensures st.active == set i | 0 <= i < |divs| && divs[i].active
    ensures st.current.None? ==> forall i :: 0 <= i < wired ==> !divs[i].active
    ensures st.current.Some? ==>
      && st.current.value < wired
      && divs[st.current.value].active
      && (forall i :: st.current.value < i < wired ==> !divs[i].active)
  {
    st := TabState((set i | 0 <= i < |divs| && divs[i].active), None);
    wired := 0;
    while wired < |divs| && divs[wired].direct
      invariant wired <= |divs|
      invariant forall i :: 0 <= i < wired ==> divs[i].direct
      invariant st.active == set i | 0 <= i < |divs| && divs[i].active
      invariant st.current.None? ==> forall i :: 0 <= i < wired ==> !divs[i].active
      invariant st.current.Some? ==>
        && st.current.value < wired
        && divs[st.current.value].active
        && (forall i :: st.current.value < i < wired ==> !divs[i].active)
    {
      if divs[wired].active {
        st := st.(current := Some(wired));
      }
      wired := wired + 1;
    }
  }
}

=== FILE: values.dfy ===
/** The Python values a shelf stores.

    A shelf record is a `dict`; its values may be any picklable Python
    object. The model keeps the shapes that matter to the store: scalars,
    lists and dicts. A dict remembers whether it is a plain `dict` or an
    instance of a subclass of `dict`, because `ShelfQuery.insert` accepts
    any instance of `dict` while `Entry.replace` accepts exactly `dict`.
 */
module Values {

  /** Entry ids are the strings produced by `str(uuid.uuid1())` (or by the
      caller, for `FileShelf.insert`). */
  type Id = string

  /** Record keys; the store only ever looks at string keys. */
  type Key = string

  datatype DictKind = PlainDict | DictSubclass

  datatype Value =
    | Null
    | Bool(b: bool)
    | Int(i: int)
    | Str(s: string)
    | List(items: seq<Value>)
    | Dict(kind: DictKind, fields: map<Key, Value>)

  /** The contents of one stored dict. */
  type Record = map<Key, Value>

  /** The key every record handed out by the store is decorated with. */
  const IdKey: Key := "_id"

  /** `isinstance(v, dict)` */
  predicate IsDict(v: Value) {
    v.Dict?
  }

  /** `type(v) is dict` */
  predicate IsExactDict(v: Value) {
    v.Dict? && v.kind == PlainDict
  }

  /** `rec` with `'_id'` set to `id` (`d['_id'] = id`, `d.update({'_id': id})`). */
  function Tag(rec: Record, id: Id): Record
  {
    rec[IdKey := Str(id)]
  }

  /** Tagging adds or overwrites the id, and every other key keeps its
      value. */
  lemma TagSetsId(rec: Record, id: Id)
    ensures Tag(rec, id).Keys == rec.Keys + {IdKey}
    ensures Tag(rec, id)[IdKey] == Str(id)
    ensures forall k :: k in rec && k != IdKey ==> Tag(rec, id)[k] == rec[k]
  {
  }

  /** `base.update(patch)` */
  function Merge(base: Record, patch: Record): Record
  {
    map k | k in base.Keys + patch.Keys :: if k in patch then patch[k] else base[k]
  }

  /** The merge holds the union of both key sets, the patch winning on every
      key the two share. */
  lemma MergeOverrides(base: Record, patch: Record)
    ensures Merge(base, patch).Keys == base.Keys + patch.Keys
    ensures forall k :: k in patch ==> Merge(base, patch)[k] == patch[k]
    ensures forall k :: k in base && k !in patch ==> Merge(base, patch)[k] == base[k]
  {
  }
}

=== FILE: wrappers.dfy ===
/** Failure-carrying results shared by every module of the model.

    The Python store raises `KeyError`, `ValueError` and bare `Exception`s;
    the widget code throws a JavaScript `TypeError` when it dereferences a
    missing DOM node. Each becomes an `Error` value instead of a thrown
    exception, so that the error paths are part of every contract.
 */
module Wrappers {

  datatype Option<+T> = None | Some(value: T)

  /** The kinds of exception the modelled code raises. */
  datatype Error =
    | KeyError          // a missing key in a mapping
    | ValueError        // a value of the wrong kind handed to the store
    | NotADict          // `Exception('... dict object')` raised by shelf.py
    | TypeError         // a method called on a missing (null) DOM node

  datatype Result<+T> = Ok(value: T) | Err(error: Error) {
    predicate IsFailure() {
      Err?
    }

    function PropagateFailure<U>(): Result<U>
      requires Err?
    {
      Err(error)
    }

    function Extract(): T
      requires Ok?
    {
      value
    }
  }
}
